=== FILE: README.md ===
# Per-day quote files and their merge, in Dafny

This project models the file pipeline of the stock-data processor. It has two sides.

- **Producer.** `CSVExporter` writes each exchange's end-of-day quotes for one date to `{exchange}_quotes_{date}.csv`. The file has the columns `symbol,date,close`. When there is no data, no file is written, but the intended path is still returned.
- **Consumer.** `CSVProcessor` reads every `.csv` entry of an input directory and stacks the tables the way `pandas.concat(..., ignore_index=True, sort=False)` does. It writes the result to `prices.csv` in the output directory and returns that path. If no entry qualifies, it raises `FileNotFoundError`.

The model is functional throughout:

- A table is a header (a sequence of column names) plus rows. Each row is a map from column name to cell text.
- A directory listing is a sequence of `(name, parsed table)` entries, in whatever order the operating system lists them.
- A write is a value in the result: the merge returns `Merged(file, sources, contents)`, and the exporter returns `Export(path, written)`.
- An error is a `Result.Failure` that carries no write.

Modules:

- `Wrappers`: `Option` and `Result`.
- `Seqs`: two generic facts about sequence concatenation that the path proofs use.
- `Paths`: two-component `os.path.join` and `os.path.basename`, as defined in POSIX `posixpath`.
- `Pathlib`: the exporter's `Path(dir) / name` on POSIX, read back with `str`. The joined text is split into an anchor and parts; empty and `.` parts are dropped, and the parts are printed with single separators.
- `Columns`: the ordered column union. It has an operational fold (`UnionAll`) and a reference definition (`Dedup` of the flattened headers, characterised by `FirstIndex`). The two are proved equal.
- `Tables`: padding, stacking and `Concat`.
- `Processor`: `src/csv_processor.py`.
- `Exporter`: `src/csv_exporter.py`.
- `Pipeline`: what the merge makes of the files one export run leaves behind.

The code's behaviour in four respects:

- **Order.** The merge reads files in raw `os.listdir` order. The model takes the listing order as an input; the merged table depends on it.
- **Output directory.** The merge writes `prices.csv` into `output_dir` as given and does not create that directory.
- **Empty selection.** With no `.csv` entry, the merge raises `FileNotFoundError` with the message `No CSV files found in the input directory.`
- **One file per exchange and date.** The exporter's per-day files are named by exchange and date only. Two exchange codes that normalise to the same path, such as `./NYSE` and `NYSE`, share one file. Distinct exchange codes without a separator get distinct path strings, and so distinct files on a file system that compares names exactly (see "File-name equality" under Left out).

## Model

| member | source | states |
|---|---|---|
| Processor.NewCsvProcessor | src/csv_processor.py:17-27 | The output file is `prices.csv` inside `output_dir`: its base name is `prices.csv`, and it is `output_dir + "prices.csv"` exactly when `output_dir` is empty or ends in `/`, otherwise `output_dir + "/prices.csv"` |
| Processor.IsCsvNameIff | src/csv_processor.py:33 | The contract of `IsCsvName`, the case-insensitive extension test: it accepts a name exactly when its last four characters are `.`, `c`/`C`, `s`/`S`, `v`/`V` |
| Processor.CsvSuffixQualifies | src/csv_processor.py:33 | Every name ending in lower-case `.csv` passes the extension test |
| Processor.CsvNameExamples | src/csv_processor.py:33 | `A.CSV` and a per-day file name qualify; `a.txt`, `csv` and `a.csv.bak` do not |
| Processor.SelectCsv | src/csv_processor.py:30-34 | An entry is selected if and only if it is in the listing and its name has the `.csv` extension |
| Processor.SelectCsvAppend | src/csv_processor.py:30-34 | Selection distributes over concatenation of listings, so the selected entries keep listing order |
| Processor.SelectCsvIdempotent | src/csv_processor.py:30-34 | Selecting from a selection changes nothing |
| Processor.CsvPaths | src/csv_processor.py:30-34 | One input path per selected entry, in listing order. Each path ends with its entry's name. A relative name follows `input_dir`, so the path is at least as long as both together. An absolute name is the path itself. A separator-free name is the path's base name |
| Processor.CombineCsvFiles | src/csv_processor.py:29-47 | Fails with `FileNotFound` and its fixed message, writing nothing, exactly when no listing entry qualifies. Otherwise it writes to and returns the processor's output file. Its sources are the input paths of the selected entries, in listing order, and it writes `MergedTable` |
| Processor.MergedTable | src/csv_processor.py:39-44 | The written table is well formed. Its row count is the sum of the selected tables' row counts. Every column of every selected file is in its header, and every header column comes from some selected file |
| Processor.MergedHeaderOrder | src/csv_processor.py:44 | The merged header has no duplicates and lists columns in first-seen order over the selected files' headers, in both directions of the iff |
| Processor.CombinedRowAt | src/csv_processor.py:40-44 | Row `j` of the `i`-th selected file sits at position (rows of the earlier selected files) + `j`, padded to the merged header |
| Processor.CombinedCellAt | src/csv_processor.py:44-45 | A merged cell holds its source row's value where the source file has that column, and is empty where it does not |
| Processor.CombineIgnoresOtherEntries | src/csv_processor.py:30-44 | Merging the selected entries alone gives the same outcome and table as merging the whole listing |
| Processor.CombineSingleFile | src/csv_processor.py:40-45 | With exactly one qualifying file, the merged table equals that file's table |
| Processor.TwoExchangeFilesExample | src/csv_processor.py:39-47 | A two-row NASDAQ file and a one-row NYSE file with the same columns merge into that header over the three rows, in file-then-row order |
| Tables.Pad | src/csv_processor.py:44 | A padded row has exactly the header's columns. It keeps the row's cells and is empty under the columns the row lacks |
| Tables.Concat | src/csv_processor.py:44 | The concatenation is well formed and has as many rows as all inputs together. Its header holds every input column and nothing else |
| Tables.ConcatRowAt | src/csv_processor.py:44 | Row `j` of input `i` is at offset (rows of inputs before `i`) + `j` of the concatenation, padded |
| Tables.RowsInListingOrder | src/csv_processor.py:40-44 | Every row of an earlier input precedes every row of a later input |
| Tables.ConcatHeaderOrder | src/csv_processor.py:44 | The concatenated header is duplicate-free and in first-seen order (iff) |
| Tables.ConcatSameHeader | src/csv_processor.py:44 | Inputs that all share one well-formed header keep that header, and their rows are simply appended |
| Tables.ConcatSingle | src/csv_processor.py:44 | Concatenating one well-formed table returns it unchanged |
| Tables.ConcatPair | src/csv_processor.py:44 | Two tables with one well-formed header concatenate to that header over both tables' rows |
| Columns.UnionAllIsDedup | src/csv_processor.py:44 | The contract of `UnionAll`, the pairwise fold that appends unseen columns: it equals keeping the first occurrence of each column of all headers read in order |
| Columns.UnionAllCharacterised | src/csv_processor.py:44 | The union is duplicate-free, contains exactly the input columns, and orders them by first occurrence (iff) |
| Columns.DedupFirstSeenOrder | src/csv_processor.py:44 | First-occurrence deduplication lists elements in increasing order of their first index |
| Columns.UnionAllOfRepeated | src/csv_processor.py:44 | A duplicate-free header, repeated any positive number of times, unions to itself |
| Paths.Join | src/csv_processor.py:27 | The joined path ends with the name. An absolute name replaces the directory. A relative name follows the directory, with one separator inserted exactly when the directory is non-empty and does not already end in one |
| Paths.BaseNameOfJoin | src/csv_processor.py:31 | The base name of a directory joined with a separator-free name is that name |
| Paths.JoinInjective | src/csv_processor.py:31 | Within one directory, distinct relative names give distinct paths |
| Pathlib.Root | src/csv_exporter.py:22 | A path has an anchor exactly when it is absolute. The anchor is `//` exactly when the path starts with two separators and not a third, and `/` for every other absolute path |
| Pathlib.SplitJoinRoundTrip | src/csv_exporter.py:39 | Splitting a path at its separators and joining the segments with `/` gives the path back |
| Pathlib.PartsShape | src/csv_exporter.py:39 | The kept parts are exactly the segments that are neither empty nor `.` |
| Pathlib.ComponentsShape | src/csv_exporter.py:39 | Every part of a path is non-empty, not `.`, and separator-free |
| Pathlib.PurePathRoundTrip | src/csv_exporter.py:39 | Reading a normalised path back gives the original anchor and parts |
| Pathlib.PurePathIdempotent | src/csv_exporter.py:39 | Normalising twice changes nothing |
| Pathlib.PurePathEqualIff | src/csv_exporter.py:39 | Two paths print alike exactly when they have the same anchor and the same parts |
| Pathlib.PurePathWithParts | src/csv_exporter.py:39 | A path with at least one part prints neither as `.` nor with a trailing separator |
| Pathlib.ComponentsOfJoin | src/csv_exporter.py:39 | The parts of a directory joined with a relative name are the directory's parts followed by the name's |
| Pathlib.PathJoinEmptyDir | src/csv_exporter.py:22 | The empty directory prints as `.`, and joining a one-part name to it gives the name |
| Pathlib.PathJoinPart | src/csv_exporter.py:39 | Joining a one-part name gives the name alone when the directory normalises to `.`. Otherwise it gives the normalised directory, a separator, and the name |
| Pathlib.BaseNameOfPathJoin | src/csv_exporter.py:39 | The base name of a directory joined with a one-part name is that name |
| Pathlib.PathJoinInjective | src/csv_exporter.py:39 | Within one directory, distinct one-part names give distinct paths |
| Pathlib.DotPrefixIgnored | src/csv_exporter.py:39 | A relative name and the same name behind `./` give the same path |
| Pathlib.DoubledSepCollapsed | src/csv_exporter.py:22 | Inside a relative path, `//` prints as `/` |
| Pathlib.FirstComponentOfPrefixed | src/csv_exporter.py:39 | A separator-free head of two or more characters fuses with the first segment of what follows into the first part |
| Exporter.FileName | src/csv_exporter.py:37 | The file name starts with the exchange code, ends with `.csv`, and is 12 characters longer than exchange and date together |
| Exporter.FileNameHasNoSep | src/csv_exporter.py:37-39 | A file name built from a separator-free exchange code and date has no separator, so it is an entry of the exporter's directory |
| Exporter.ParseFileName | src/csv_exporter.py:37 | Any name it accepts has an underscore-free exchange code and is rebuilt exactly by `FileName` |
| Exporter.FileNameRoundTrip | src/csv_exporter.py:37 | For an exchange code without `_`, parsing the file name gives back the exchange code and the date |
| Exporter.FileNameInjective | src/csv_exporter.py:37 | For one date, distinct exchanges give distinct file names |
| Exporter.MapRecord | src/csv_exporter.py:56-60 | A written row has exactly the columns `symbol`, `date`, `close`. They hold the record's `symbolCode`, `dateStamp` and `close`, or `""` when the key is missing |
| Exporter.MapRecordReadsOnlyMappedFields | src/csv_exporter.py:56-60 | Records that agree on `symbolCode`, `dateStamp` and `close` give the same row, so no other field reaches the file |
| Exporter.MapRecordRoundTrip | src/csv_exporter.py:56-60 | Every row with the three columns is the row written for the record read back from it |
| Exporter.UnmapRowRoundTrip | src/csv_exporter.py:56-60 | A record holding exactly the three read fields is recovered from its row |
| Exporter.HeaderDistinct | src/csv_exporter.py:49 | The three field names are distinct |
| Exporter.QuoteTable | src/csv_exporter.py:48-61 | A written file has header `symbol,date,close`, is well formed, and holds the mapped records |
| Exporter.FileNameIsPart | src/csv_exporter.py:37 | A file name is one path part: never empty and never `.` |
| Exporter.ExportStockData | src/csv_exporter.py:25-65 | The returned path is `Path(dir) / "{exchange}_quotes_{date}.csv"` as pathlib prints it. Nothing is written exactly when the data is not a list or is empty. Otherwise the written table has header `symbol,date,close` and one mapped row per record, in record order |
| Exporter.ExportStockDataPath | src/csv_exporter.py:37-39 | For a separator-free exchange code and date, the path is the file name alone when the directory normalises to `.`. Otherwise it is the normalised directory, `/`, and the file name. Either way its base name is the file name |
| Exporter.ExportExchangeData | src/csv_exporter.py:71-85 | The result has exactly the input's exchange keys. Each value is the path the single export gives for that exchange and the shared date, and for a separator-free exchange code and date, its base name is the exchange's file name |
| Exporter.SameJoinSameComponents | src/csv_exporter.py:39 | Equal paths from one directory and two relative names mean the names have equal parts |
| Exporter.PathsEqualSameExchange | src/csv_exporter.py:37-39 | Two separator-free exchange codes whose files land on one path are equal |
| Exporter.ExportPathsDistinct | src/csv_exporter.py:81-85 | Two separator-free exchange codes of one run never share a path string, so on a file system that compares names exactly no export overwrites another |
| Exporter.DotExchangeSharesPath | src/csv_exporter.py:37-39 | A relative exchange code behind `./` gets the same path as the bare code, so the later export overwrites the earlier one |
| Pipeline.BatchesOf | src/csv_exporter.py:82 | The batches of an exchange dictionary, taken in an order that lists every key exactly once, have distinct exchange codes, carry each key's payload, and cover exactly the dictionary's keys |
| Pipeline.DailyFile | src/csv_exporter.py:37-45 | For a separator-free exchange code and date, an export leaves one directory entry exactly when its data is a non-empty list. The entry carries the header `symbol,date,close`, the mapped records, and the base name of the returned path |
| Pipeline.ExportedNameIsCsv | src/csv_exporter.py:37 | Every exporter file name passes the merge's `.csv` extension test |
| Pipeline.DailyFileSelected | src/csv_exporter.py:37-45 | The file one export leaves, if any, is selected by the merge |
| Pipeline.DailyFilesShape | src/csv_exporter.py:43-61 | For separator-free exchange codes and date, the files of an export run are all selected by the merge, and all carry the well-formed header `symbol,date,close` |
| Pipeline.WritersDistinct | src/csv_exporter.py:82-83 | Keeping only the batches that write a file keeps the exchange codes distinct |
| Pipeline.DailyFileNamed | src/csv_exporter.py:37-45 | One batch leaves a file exactly when it writes, and that file's name is the exporter's file name |
| Pipeline.DailyFilesNamed | src/csv_exporter.py:82-83 | The k-th file of a run is named after the k-th batch that writes |
| Pipeline.DailyFilesNamesDistinct | src/csv_exporter.py:82-83 | With separator-free codes and dates and distinct exchanges, no two files of a run share a name string, so on a file system that compares names exactly the listing has one entry per written file |
| Pipeline.DailyFilesEmpty | src/csv_exporter.py:43-45 | For separator-free exchange codes and date, an export run leaves no file exactly when no batch had records |
| Pipeline.DailyFileRows | src/csv_exporter.py:55-61 | For a separator-free exchange code and date, the rows of one export's file are its records, mapped, in order |
| Pipeline.DailyFilesRows | src/csv_exporter.py:55-61 | For separator-free, distinct exchange codes and a separator-free date, the rows of a run's files, file after file, are all the records mapped, batch after batch |
| Pipeline.MergeExportedFilesFails | src/csv_processor.py:36-37 | For separator-free, distinct exchange codes and a separator-free date, merging a run's files fails exactly when the exporter received no records |
| Pipeline.MergeExportedFiles | src/csv_processor.py:39-44 | For separator-free, distinct exchange codes and a separator-free date, merging a run's files gives header `symbol,date,close`, and the rows are every record mapped, in listing order, where the batch sequence is taken in the order the files are listed, then record order |
| Pipeline.MergedRowCount | src/csv_processor.py:39-44 | For separator-free, distinct exchange codes and a separator-free date, the merged file has as many rows as the exporter received records |

## Left out

- **File I/O.** `pd.read_csv` and `DataFrame.to_csv` are not modelled: quoting, dtype inference (`"1.50"` read back as a float) and the NaN representation. Cells are opaque strings and a missing cell is `""`.
- **Duplicate column names.** `read_csv` renames duplicate columns within one file, so every parsed table is assumed well formed. `Concat` itself accepts any tables.
- **Directory listing.** `os.listdir` is an input sequence. Its order is unspecified, and names are never checked for uniqueness.
- **Unreadable entries.** An entry whose name ends in `.csv` but cannot be parsed, such as a sub-directory or an empty file, is not modelled. Neither is the exception that would raise.
- **Failing system calls.** A failing `os.listdir` (a missing or unreadable input directory), a failing `to_csv` (a missing or read-only output directory) and a failing `open` in the exporter all raise. The exporter logs its failure and re-raises it. None of these exceptions is modelled: the listing is an input and every write succeeds.
- **File-name equality.** Paths are compared as exact strings, as on a case-sensitive file system that does not normalise names. On a case-insensitive or normalising one, such as the default macOS volume, exchange codes that differ only in case (`NYSE` and `nyse`) or only in Unicode normalisation share one file, and the later export overwrites the earlier one.
- **Directory history.** The end-to-end lemmas take the merged directory to hold exactly one run's files, written into an empty directory. In the program the directory persists: an export with no data leaves an earlier file at its path in place, and files of other dates stay. `Pipeline.MergeExportedFilesFails` and its neighbours describe a fresh directory only.
- **Exchange codes with a separator.** A code such as `sub/X` writes outside the exporter's directory, and `./X` shares a file with `X`. The pipeline's listing is therefore defined only for separator-free codes and dates; the exporter itself handles every code (see `Exporter.DotExchangeSharesPath`).
- **Output-directory creation.** `mkdir(parents=True, exist_ok=True)` in the exporter's constructor is not modelled, and neither are the encoding (UTF-8) or crash/atomicity behaviour of any write.
- **Logging.** The logging calls are not modelled; they have no effect on results.
- **Record shape.** A record that is not a dictionary would make `record.get` raise after the file was opened. That partial write is not modelled: records are maps.
- Exporter.MapRecord: record values are opaque text. Python's `str()` rendering of non-string values (numbers, `None` written as `""`) is not modelled.
- Exporter.ExportStockData: `Path(dir) / name` is modelled as `PosixPath` arithmetic. On POSIX, pathlib resolves neither symbolic links nor `..`, so there is nothing more to model there. `WindowsPath`, with its drive letters and backslash separators, is not modelled.
- Processor.IsCsvNameIff: `str.lower` is modelled on ASCII letters only. This is exact for the extension test, because no other character lowers to `.`, `c`, `s` or `v`, and the only character that lowers to two characters ends in a combining mark.
- **main.py.** Argument parsing, configuration loading and printing are not modelled. It never calls `CSVProcessor`. It passes `output_dir=` to `CSVExporter`, whose parameter is `daily_quotes_directory`, so that call would fail; it is not modelled as working.
- **api_client.py.** The HTTP client and its exchange whitelist are not part of this model. Its results enter as the `Payload` of each batch.

=== FILE: columns.dfy ===
/**
 * Ordered union of column sequences, as `pandas.concat(..., sort=False)`
 * computes the combined header: every column once, in the order in which it
 * is first seen when the input headers are read one after the other.
 *
 * `UnionAll` is the operational definition (fold the headers into an
 * accumulator, appending unseen columns); `Dedup` of the flattened headers
 * is the reference definition, characterised by `FirstIndex`.
 */
module Columns {

  /** A column name of a table header. */
  type Column = string

  predicate Distinct(s: seq<Column>) {
    forall i, j :: 0 <= i < j < |s| ==> s[i] != s[j]
  }

  /** Position of the first occurrence of `x` in `s`. */
  function FirstIndex(s: seq<Column>, x: Column): (k: nat)
    requires x in s
    ensures k < |s| && s[k] == x
    ensures x !in s[..k]
  {
    if s[0] == x then 0
    else
      assert s == [s[0]] + s[1..];
      var k := 1 + FirstIndex(s[1..], x);
      assert s[..k] == [s[0]] + s[1..][..k - 1];
      k
  }

  /** All elements of `xss`, sequence after sequence. */
  function Flatten(xss: seq<seq<Column>>): (r: seq<Column>)
  {
    if |xss| == 0 then [] else Flatten(xss[..|xss| - 1]) + xss[|xss| - 1]
  }

  /** Reference definition: the first occurrence of each element, in order. */
  function Dedup(s: seq<Column>): (d: seq<Column>)
  {
    if |s| == 0 then []
    else
      var init := s[..|s| - 1];
      assert s == init + [s[|s| - 1]];
      if s[|s| - 1] in init then Dedup(init) else Dedup(init) + [s[|s| - 1]]
  }

  /** `Dedup` keeps one copy of every element and nothing else. */
  lemma {:induction false} DedupMembers(s: seq<Column>)
    ensures Distinct(Dedup(s))
    ensures forall x :: x in Dedup(s) <==> x in s
    decreases |s|
  {
    if |s| > 0 {
      var init := s[..|s| - 1];
      assert s == init + [s[|s| - 1]];
      DedupMembers(init);
    }
  }

  /** One union step: append the columns of `cols` that are not yet in `acc`, in their order. */
  function AppendNew(acc: seq<Column>, cols: seq<Column>): (r: seq<Column>)
    decreases |cols|
  {
    if |cols| == 0 then acc
    else AppendNew(if cols[0] in acc then acc else acc + [cols[0]], cols[1..])
  }

  /** Operational definition: fold the headers, left to right, into one union. */
  function UnionAll(headers: seq<seq<Column>>): (r: seq<Column>)
  {
    if |headers| == 0 then []
    else AppendNew(UnionAll(headers[..|headers| - 1]), headers[|headers| - 1])
  }

  /** Extending a sequence by one element extends its deduplication by that element when it is new. */
  lemma DedupSnoc(p: seq<Column>, c: Column)
    ensures Dedup(p + [c]) == if c in p then Dedup(p) else Dedup(p) + [c]
  {
    assert (p + [c])[..|p|] == p;
  }

  /** One step of the fold moves the next column from `cols` into the deduplicated prefix. */
  lemma AppendNewStep(p: seq<Column>, cols: seq<Column>)
    requires |cols| > 0
    ensures AppendNew(Dedup(p), cols) == AppendNew(Dedup(p + [cols[0]]), cols[1..])
  {
    DedupSnoc(p, cols[0]);
    DedupMembers(p);
    assert cols[0] in Dedup(p) <==> cols[0] in p;
  }

  /** Appending unseen elements to a deduplicated prefix deduplicates the extended sequence. */
  lemma {:induction false} AppendNewExtendsDedup(p: seq<Column>, cols: seq<Column>)
    ensures AppendNew(Dedup(p), cols) == Dedup(p + cols)
    decreases |cols|
  {
    if |cols| == 0 {
      assert p + cols == p;
    } else {
      var p' := p + [cols[0]];
      AppendNewStep(p, cols);
      AppendNewExtendsDedup(p', cols[1..]);
      assert p' + cols[1..] == p + cols;
    }
  }

  /** The folded union is the reference union of the flattened headers. */
  lemma {:induction false} UnionAllIsDedup(headers: seq<seq<Column>>)
    ensures UnionAll(headers) == Dedup(Flatten(headers))
    decreases |headers|
  {
    if |headers| > 0 {
      var init := headers[..|headers| - 1];
      UnionAllIsDedup(init);
      AppendNewExtendsDedup(Flatten(init), headers[|headers| - 1]);
    }
  }

  /** An element's first occurrence is unaffected by what is appended after it. */
  lemma FirstIndexPrefix(p: seq<Column>, q: seq<Column>, x: Column)
    requires x in p
    ensures FirstIndex(p + q, x) == FirstIndex(p, x)
  {
    var k := FirstIndex(p, x);
    assert (p + q)[k] == x;
  }

  /** An element absent from `p` first occurs right after it. */
  lemma FirstIndexAppended(p: seq<Column>, y: Column)
    requires y !in p
    ensures FirstIndex(p + [y], y) == |p|
  {
    assert (p + [y])[|p|] == y;
  }

  /** `Dedup` lists elements in the order of their first occurrence. */
  lemma {:induction false} DedupFirstSeenOrder(s: seq<Column>)
    ensures forall x :: x in Dedup(s) ==> x in s
    ensures forall i, j :: 0 <= i < j < |Dedup(s)| ==>
              FirstIndex(s, Dedup(s)[i]) < FirstIndex(s, Dedup(s)[j])
    decreases |s|
  {
    DedupMembers(s);
    if |s| > 0 {
      var init := s[..|s| - 1];
      var y := s[|s| - 1];
      assert s == init + [y];
      DedupFirstSeenOrder(init);
      DedupMembers(init);
      var d0 := Dedup(init);
      forall x | x in d0
        ensures FirstIndex(s, x) == FirstIndex(init, x)
      {
        FirstIndexPrefix(init, [y], x);
      }
      if y !in init {
        FirstIndexAppended(init, y);
        assert Dedup(s) == d0 + [y];
        forall i, j | 0 <= i < j < |Dedup(s)|
          ensures FirstIndex(s, Dedup(s)[i]) < FirstIndex(s, Dedup(s)[j])
        {
          assert Dedup(s)[i] == d0[i];
          if j < |d0| {
            assert Dedup(s)[j] == d0[j];
          }
        }
      }
    }
  }

  /** The combined header properties: distinct, exactly the input columns, first-seen order (both directions). */
  lemma UnionAllCharacterised(headers: seq<seq<Column>>)
    ensures Distinct(UnionAll(headers))
    ensures forall x :: x in UnionAll(headers) <==> x in Flatten(headers)
    ensures forall i, j :: 0 <= i < |UnionAll(headers)| && 0 <= j < |UnionAll(headers)| ==>
              (i < j <==> FirstIndex(Flatten(headers), UnionAll(headers)[i]) < FirstIndex(Flatten(headers), UnionAll(headers)[j]))
  {
    UnionAllIsDedup(headers);
    DedupMembers(Flatten(headers));
    DedupFirstSeenOrder(Flatten(headers));
  }

  /** A column occurs in the flattened headers exactly when some header lists it. */
  lemma {:induction false} FlattenMembers(xss: seq<seq<Column>>, x: Column)
    ensures x in Flatten(xss) <==> exists i :: 0 <= i < |xss| && x in xss[i]
    decreases |xss|
  {
    if |xss| > 0 {
      var init := xss[..|xss| - 1];
      FlattenMembers(init, x);
      if x in Flatten(xss) && x !in xss[|xss| - 1] {
        var i :| 0 <= i < |init| && x in init[i];
        assert xss[i] == init[i];
      }
      if x in xss[|xss| - 1] {
      } else if exists i :: 0 <= i < |xss| && x in xss[i] {
        var i :| 0 <= i < |xss| && x in xss[i];
        assert i < |init| && init[i] == xss[i];
      }
    }
  }

  /** A duplicate-free header folded on its own, or again and again, is its own union. */
  lemma {:induction false} UnionAllOfRepeated(headers: seq<seq<Column>>, h: seq<Column>)
    requires Distinct(h)
    requires |headers| > 0
    requires forall i :: 0 <= i < |headers| ==> headers[i] == h
    ensures UnionAll(headers) == h
    decreases |headers|
  {
    if |headers| == 1 {
      AppendNewFresh([], h);
      assert [] + h == h;
    } else {
      UnionAllOfRepeated(headers[..|headers| - 1], h);
      AppendNewSeen(h, h);
    }
  }

  /** Columns that are all already present add nothing. */
  lemma {:induction false} AppendNewSeen(acc: seq<Column>, cols: seq<Column>)
    requires forall x :: x in cols ==> x in acc
    ensures AppendNew(acc, cols) == acc
    decreases |cols|
  {
    if |cols| > 0 {
      assert cols[0] in acc;
      AppendNewSeen(acc, cols[1..]);
    }
  }

  /** Distinct columns none of which is present are all appended, in order. */
  lemma {:induction false} AppendNewFresh(acc: seq<Column>, cols: seq<Column>)
    requires Distinct(cols)
    requires forall x :: x in cols ==> x !in acc
    ensures AppendNew(acc, cols) == acc + cols
    decreases |cols|
  {
    if |cols| > 0 {
      var acc' := acc + [cols[0]];
      forall x | x in cols[1..]
        ensures x !in acc'
      {
        var k :| 1 <= k < |cols| && cols[k] == x;
      }
      AppendNewFresh(acc', cols[1..]);
      assert acc' + cols[1..] == acc + cols;
    }
  }
}

=== FILE: exporter.dfy ===
/**
 * `CSVExporter` of src/csv_exporter.py: write one exchange's quote records
 * for one date to `{exchange}_quotes_{date}.csv` with the columns
 * `symbol,date,close`, and do so for every exchange of a batch.
 *
 * A write is the `written` table of an `Export`; `None` means no file was
 * opened. Record values are opaque text.
 */
module Exporter {
  import opened Wrappers
  import opened Paths
  import opened Pathlib
  import opened Columns
  import opened Tables

  /** The `fieldnames` of the `DictWriter`, in column order. */
  const Header: seq<Column> := ["symbol", "date", "close"]

  /** The text between the exchange's `_` and the date in a per-day file name. */
  const QuotesTag: string := "quotes_"

  /** One quote record as the API returns it: field name to value. */
  type Record = map<string, string>

  /** The `data` argument: a list of records, or some other value, which fails `isinstance(data, list)`. */
  datatype Payload = Records(records: seq<Record>) | NotAList

  /** `CSVExporter(daily_quotes_directory)`: only the directory is kept. */
  datatype CsvExporter = CsvExporter(outputDir: string)

  /** The outcome of one export: the path returned and, if a file was written, its table. */
  datatype Export = Export(path: string, written: Option<Table>)

  /** `f"{exchange}_quotes_{date_stamp}.csv"`. */
  function FileName(exchange: string, dateStamp: string): (n: string)
    ensures |n| == |exchange| + |dateStamp| + 12
    ensures n[..|exchange|] == exchange
    ensures EndsWith(n, CsvExtension)
  {
    exchange + "_" + QuotesTag + dateStamp + CsvExtension
  }

  /** The file name adds no separator to the exchange code and date, so it names an entry of the directory itself. */
  lemma FileNameHasNoSep(exchange: string, dateStamp: string)
    requires Sep !in exchange && Sep !in dateStamp
    ensures Sep !in FileName(exchange, dateStamp)
  {
    assert Sep !in "_";
    assert Sep !in QuotesTag by {
      assert forall k :: 0 <= k < |QuotesTag| ==> QuotesTag[k] != Sep;
    }
    assert Sep !in CsvExtension by {
      assert forall k :: 0 <= k < |CsvExtension| ==> CsvExtension[k] != Sep;
    }
    assert FileName(exchange, dateStamp) == (((exchange + "_") + QuotesTag) + dateStamp) + CsvExtension;
  }

  /** Split `s` at the first occurrence of `c`. */
  function SplitAtFirst(s: string, c: char): (r: Option<(string, string)>)
    ensures r.None? <==> c !in s
    ensures r.Some? ==> s == r.value.0 + [c] + r.value.1 && c !in r.value.0
  {
    if |s| == 0 then None
    else if s[0] == c then
      assert s == [] + [c] + s[1..];
      Some(([], s[1..]))
    else
      match SplitAtFirst(s[1..], c)
      case None => None
      case Some((a, b)) =>
        assert s == ([s[0]] + a) + [c] + b;
        Some(([s[0]] + a, b))
  }

  /** The split point is unique: any split whose left part avoids `c` is the first one. */
  lemma SplitAtFirstUnique(s: string, c: char, a: string, b: string)
    requires s == a + [c] + b && c !in a
    ensures SplitAtFirst(s, c) == Some((a, b))
  {
    var r := SplitAtFirst(s, c);
    var a', b' := r.value.0, r.value.1;
    assert forall k :: 0 <= k < |a| ==> s[k] == a[k] != c;
    assert forall k :: 0 <= k < |a'| ==> s[k] == a'[k] != c;
    assert s[|a|] == c && s[|a'|] == c;
    assert |a'| == |a|;
    assert a' == s[..|a|] == a;
    assert b' == s[|a| + 1..] == b;
  }

  /** Recover exchange and date from a per-day file name; `None` for any other name. */
  function ParseFileName(n: string): (r: Option<(string, string)>)
    ensures r.Some? ==> '_' !in r.value.0 && FileName(r.value.0, r.value.1) == n
  {
    match SplitAtFirst(n, '_')
    case None => None
    case Some((exchange, rest)) =>
      if |rest| >= 11 && rest[..7] == QuotesTag && rest[|rest| - 4..] == CsvExtension then
        var dateStamp := rest[7..|rest| - 4];
        assert rest == rest[..7] + dateStamp + rest[|rest| - 4..];
        assert n == exchange + "_" + QuotesTag + dateStamp + CsvExtension;
        Some((exchange, dateStamp))
      else None
  }

  /** A file name built from an exchange code without `_` parses back to that code and date. */
  lemma FileNameRoundTrip(exchange: string, dateStamp: string)
    requires '_' !in exchange
    ensures ParseFileName(FileName(exchange, dateStamp)) == Some((exchange, dateStamp))
  {
    var rest := QuotesTag + dateStamp + CsvExtension;
    assert FileName(exchange, dateStamp) == exchange + ['_'] + rest;
    SplitAtFirstUnique(FileName(exchange, dateStamp), '_', exchange, rest);
    assert rest[..7] == QuotesTag;
    assert rest[7..|rest| - 4] == dateStamp;
  }

  /** For one date, distinct exchanges get distinct file names. */
  lemma FileNameInjective(x: string, y: string, dateStamp: string)
    requires FileName(x, dateStamp) == FileName(y, dateStamp)
    ensures x == y
  {
    assert |x| == |y|;
  }

  /** `record.get(key, "")`. */
  function Field(rec: Record, key: string): string {
    if key in rec then rec[key] else ""
  }

  /** The row written for one record: `symbolCode`, `dateStamp` and `close` under the output names. */
  function MapRecord(rec: Record): (row: Row)
    ensures row.Keys == ColumnSet(Header)
    ensures row["symbol"] == Field(rec, "symbolCode")
    ensures row["date"] == Field(rec, "dateStamp")
    ensures row["close"] == Field(rec, "close")
  {
    map["symbol" := Field(rec, "symbolCode"), "date" := Field(rec, "dateStamp"), "close" := Field(rec, "close")]
  }

  /** Records that agree on the three mapped fields give the same row: no other field reaches the file. */
  lemma MapRecordReadsOnlyMappedFields(r1: Record, r2: Record)
    requires forall k :: k in ["symbolCode", "dateStamp", "close"] ==> (k in r1 <==> k in r2)
    requires forall k :: k in ["symbolCode", "dateStamp", "close"] && k in r1 ==> r1[k] == r2[k]
    ensures MapRecord(r1) == MapRecord(r2)
  {
    assert "symbolCode" in ["symbolCode", "dateStamp", "close"];
    assert "dateStamp" in ["symbolCode", "dateStamp", "close"];
    assert "close" in ["symbolCode", "dateStamp", "close"];
  }

  /** The record a row was written from, keeping only the fields that were read. */
  function UnmapRow(row: Row): (rec: Record)
    requires row.Keys == ColumnSet(Header)
    ensures rec.Keys == {"symbolCode", "dateStamp", "close"}
  {
    map["symbolCode" := row["symbol"], "dateStamp" := row["date"], "close" := row["close"]]
  }

  /** Mapping is invertible on written rows: every shaped row is written from exactly its unmapped record. */
  lemma MapRecordRoundTrip(row: Row)
    requires row.Keys == ColumnSet(Header)
    ensures MapRecord(UnmapRow(row)) == row
  {
  }

  /** A record holding exactly the three read fields is recovered from its row. */
  lemma UnmapRowRoundTrip(rec: Record)
    requires rec.Keys == {"symbolCode", "dateStamp", "close"}
    ensures UnmapRow(MapRecord(rec)) == rec
  {
  }

  /** The header's three column names differ. */
  lemma HeaderDistinct()
    ensures Distinct(Header)
  {
    assert Header[0][0] == 's' && Header[1][0] == 'd' && Header[2][0] == 'c';
  }

  /** The rows written for `records`, one per record, in order. */
  function MapRecords(records: seq<Record>): (rows: seq<Row>)
    ensures |rows| == |records|
    ensures forall i :: 0 <= i < |records| ==> rows[i] == MapRecord(records[i])
  {
    seq(|records|, i requires 0 <= i < |records| => MapRecord(records[i]))
  }

  /** The file body of a write: the fixed header over the mapped records. */
  function QuoteTable(records: seq<Record>): (t: Table)
    ensures t.header == Header && WellFormed(t)
    ensures t.rows == MapRecords(records)
  {
    HeaderDistinct();
    Table(Header, MapRecords(records))
  }

  /** Mapping records distributes over concatenation. */
  lemma MapRecordsAppend(a: seq<Record>, b: seq<Record>)
    ensures MapRecords(a + b) == MapRecords(a) + MapRecords(b)
  {
  }

  /** A per-day file name is one path part: it is neither empty nor `.`. */
  lemma FileNameIsPart(exchange: string, dateStamp: string)
    ensures IsPart(FileName(exchange, dateStamp))
  {
    assert |FileName(exchange, dateStamp)| >= 12;
  }

  /** `CSVExporter.export_stock_data(exchange, data, date_stamp)`. */
  function ExportStockData(e: CsvExporter, exchange: string, data: Payload, dateStamp: string): (r: Export)
    ensures r.path == PathJoin(e.outputDir, FileName(exchange, dateStamp))
    ensures r.written.None? <==> data.NotAList? || |data.records| == 0
    ensures r.written.Some? ==> r.written.value.header == Header && WellFormed(r.written.value)
    ensures r.written.Some? ==> |r.written.value.rows| == |data.records|
    ensures r.written.Some? ==> forall i :: 0 <= i < |data.records| ==>
              r.written.value.rows[i] == MapRecord(data.records[i])
  {
    var path := PathJoin(e.outputDir, FileName(exchange, dateStamp));
    if data.NotAList? || |data.records| == 0 then Export(path, None)
    else Export(path, Some(QuoteTable(data.records)))
  }

  /**
   * For a separator-free exchange code and date, the returned path is the
   * normalised directory joined with the file name (the file name alone
   * when the directory normalises to `.`), and its base name is the file name.
   */
  lemma ExportStockDataPath(e: CsvExporter, exchange: string, data: Payload, dateStamp: string)
    requires Sep !in exchange && Sep !in dateStamp
    ensures var path := ExportStockData(e, exchange, data, dateStamp).path;
            var name := FileName(exchange, dateStamp);
            && path == (if PurePath(e.outputDir) == "." then name else Join(PurePath(e.outputDir), name))
            && BaseName(path) == name
  {
    var name := FileName(exchange, dateStamp);
    FileNameHasNoSep(exchange, dateStamp);
    FileNameIsPart(exchange, dateStamp);
    PathJoinPart(e.outputDir, name);
    BaseNameOfPathJoin(e.outputDir, name);
  }

  /** `CSVExporter.export_exchange_data(exchange_data, date_stamp)`: exchange to returned path. */
  function ExportExchangeData(e: CsvExporter, exchangeData: map<string, Payload>, dateStamp: string): (r: map<string, string>)
    ensures r.Keys == exchangeData.Keys
    ensures forall x :: x in r ==> r[x] == ExportStockData(e, x, exchangeData[x], dateStamp).path
    ensures forall x :: x in r && Sep !in x && Sep !in dateStamp ==> BaseName(r[x]) == FileName(x, dateStamp)
  {
    forall x | x in exchangeData && Sep !in x && Sep !in dateStamp
      ensures BaseName(PathJoin(e.outputDir, FileName(x, dateStamp))) == FileName(x, dateStamp)
    {
      ExportStockDataPath(e, x, exchangeData[x], dateStamp);
    }
    map x | x in exchangeData :: ExportStockData(e, x, exchangeData[x], dateStamp).path
  }

  /** The text of a file name before the date: separator-free, and at least the tag long. */
  lemma FileNameSplit(exchange: string, dateStamp: string)
    requires Sep !in exchange
    ensures var head := exchange + "_" + QuotesTag;
            && Sep !in head && |head| == |exchange| + 8
            && FileName(exchange, dateStamp) == head + (dateStamp + CsvExtension)
  {
    assert Sep !in QuotesTag by {
      assert forall k :: 0 <= k < |QuotesTag| ==> QuotesTag[k] != Sep;
    }
  }

  /** Equal joins of one directory with two relative names have equal name components. */
  lemma SameJoinSameComponents(dir: string, a: string, b: string)
    requires IsRelative(a) && IsRelative(b)
    requires PathJoin(dir, a) == PathJoin(dir, b)
    ensures Components(a) == Components(b)
  {
    PurePathEqualIff(Join(dir, a), Join(dir, b));
    ComponentsOfJoin(dir, a);
    ComponentsOfJoin(dir, b);
    var cd := Components(dir);
    assert Components(a) == (cd + Components(a))[|cd|..];
    assert Components(b) == (cd + Components(b))[|cd|..];
  }

  /** Equal prefixes before a common tail have equal length, so the exchange codes agree. */
  lemma HeadsEqualSameExchange(x: string, y: string, tail: string)
    requires x + "_" + QuotesTag + tail == y + "_" + QuotesTag + tail
    ensures x == y
  {
    var u := x + "_" + QuotesTag + tail;
    assert |x| == |y|;
    assert x == u[..|x|];
  }

  /** Two exchange codes whose per-day files land on one path are equal, when neither holds a separator. */
  lemma PathsEqualSameExchange(dir: string, x: string, y: string, dateStamp: string)
    requires Sep !in x && Sep !in y
    requires PathJoin(dir, FileName(x, dateStamp)) == PathJoin(dir, FileName(y, dateStamp))
    ensures x == y
  {
    var t := dateStamp + CsvExtension;
    FileNameSplit(x, dateStamp);
    FileNameSplit(y, dateStamp);
    assert FileName(x, dateStamp)[0] != Sep && FileName(y, dateStamp)[0] != Sep;
    SameJoinSameComponents(dir, FileName(x, dateStamp), FileName(y, dateStamp));
    FirstComponentOfPrefixed(x + "_" + QuotesTag, t);
    FirstComponentOfPrefixed(y + "_" + QuotesTag, t);
    HeadsEqualSameExchange(x, y, Segments(t)[0]);
  }

  /**
   * Within one run, two exchanges never share an output path, so no export
   * overwrites another, as long as the exchange codes hold no separator.
   */
  lemma ExportPathsDistinct(e: CsvExporter, exchangeData: map<string, Payload>, dateStamp: string, x: string, y: string)
    requires x in exchangeData && y in exchangeData && x != y
    requires Sep !in x && Sep !in y
    ensures ExportExchangeData(e, exchangeData, dateStamp)[x] != ExportExchangeData(e, exchangeData, dateStamp)[y]
  {
    var paths := ExportExchangeData(e, exchangeData, dateStamp);
    if paths[x] == paths[y] {
      PathsEqualSameExchange(e.outputDir, x, y, dateStamp);
    }
  }

  /**
   * An exchange code spelled with a leading `./` lands on the same path as
   * the bare code: the later export overwrites the earlier one.
   */
  lemma DotExchangeSharesPath(e: CsvExporter, exchange: string, data: Payload, dateStamp: string)
    requires IsRelative(exchange)
    ensures ExportStockData(e, "./" + exchange, data, dateStamp).path == ExportStockData(e, exchange, data, dateStamp).path
  {
    var name := FileName(exchange, dateStamp);
    assert FileName("./" + exchange, dateStamp) == "./" + name;
    assert IsRelative(name) by {
      if |exchange| > 0 {
        assert name[0] == exchange[0];
      } else {
        assert name[0] == '_';
      }
    }
    DotPrefixIgnored(e.outputDir, name);
  }
}

=== FILE: pathlib.dfy ===
/**
 * `pathlib.PurePosixPath` as the exporter uses it. `Path(dir) / name` is the
 * text `os.path.join(dir, name)` read back as a path: an anchor (`Root`) and
 * a list of parts, where empty segments and `.` segments are dropped. Its
 * string form prints the anchor, then the parts separated by single
 * separators, or `.` when there is neither.
 */
module Pathlib {
  import opened Paths
  import opened Seqs

  /** `posixpath.splitroot`'s anchor: none, `/`, or exactly two leading separators kept as `//`. */
  function Root(p: string): (r: string)
    ensures r == [] <==> IsRelative(p)
    ensures r == [] || r == [Sep] || r == [Sep, Sep]
    ensures r == [Sep, Sep] <==> |p| >= 2 && p[0] == Sep && p[1] == Sep && (|p| == 2 || p[2] != Sep)
  {
    if IsRelative(p) then []
    else if |p| >= 2 && p[1] == Sep && (|p| == 2 || p[2] != Sep) then [Sep, Sep]
    else [Sep]
  }

  /** `p.split("/")`: the text between separators, empty segments included. */
  function Segments(p: string): (s: seq<string>)
    ensures |s| > 0
    decreases |p|
  {
    if |p| == 0 then [[]]
    else if p[|p| - 1] == Sep then Segments(p[..|p| - 1]) + [[]]
    else
      var s := Segments(p[..|p| - 1]);
      s[..|s| - 1] + [s[|s| - 1] + [p[|p| - 1]]]
  }

  /** `"/".join(parts)`. */
  function JoinParts(parts: seq<string>): string
    decreases |parts|
  {
    if |parts| == 0 then []
    else if |parts| == 1 then parts[0]
    else JoinParts(parts[..|parts| - 1]) + [Sep] + parts[|parts| - 1]
  }

  /** A segment the path keeps as a part: neither empty nor `.`. */
  predicate IsPart(seg: string) {
    seg != [] && seg != "."
  }

  /** The segments kept as parts, in order. */
  function Parts(segs: seq<string>): (r: seq<string>)
    ensures |r| <= |segs|
    decreases |segs|
  {
    if |segs| == 0 then []
    else
      var last := segs[|segs| - 1];
      Parts(segs[..|segs| - 1]) + (if IsPart(last) then [last] else [])
  }

  /** The parts of a path: its segments that are neither empty nor `.`. */
  function Components(p: string): seq<string> {
    Parts(Segments(p))
  }

  /** `str(PurePosixPath(p))`: the anchor, then the parts; `.` when both are empty. */
  function PurePath(p: string): (r: string)
  {
    var root := Root(p);
    var parts := Components(p);
    if root == [] && parts == [] then "." else root + JoinParts(parts)
  }

  /** `str(Path(dir) / name)`. */
  function PathJoin(dir: string, name: string): string {
    PurePath(Join(dir, name))
  }

  /** No segment holds a separator. */
  lemma {:induction false} SegmentsSepFree(p: string)
    ensures forall k :: 0 <= k < |Segments(p)| ==> Sep !in Segments(p)[k]
    decreases |p|
  {
    if |p| > 0 {
      var p' := p[..|p| - 1];
      SegmentsSepFree(p');
      var s := Segments(p');
      assert s[|s| - 1] in s;
    }
  }

  /** Exactly the segments that are parts are kept. */
  lemma {:induction false} PartsShape(segs: seq<string>)
    ensures forall k :: 0 <= k < |Parts(segs)| ==> IsPart(Parts(segs)[k])
    ensures forall x :: x in Parts(segs) <==> x in segs && IsPart(x)
    decreases |segs|
  {
    if |segs| > 0 {
      var init, last := segs[..|segs| - 1], segs[|segs| - 1];
      assert segs == init + [last];
      PartsShape(init);
    }
  }

  /** Every component is a separator-free part. */
  lemma ComponentsShape(p: string)
    ensures forall k :: 0 <= k < |Components(p)| ==> IsPart(Components(p)[k]) && Sep !in Components(p)[k]
  {
    var c := Components(p);
    PartsShape(Segments(p));
    SegmentsSepFree(p);
    assert forall k :: 0 <= k < |c| ==> c[k] in Segments(p);
  }

  /** Non-empty parts joined by single separators start with the first part and end with the last. */
  lemma {:induction false} JoinPartsEnds(c: seq<string>)
    requires |c| > 0
    requires forall k :: 0 <= k < |c| ==> c[k] != []
    ensures var j := JoinParts(c);
            |j| > 0 && j[0] == c[0][0] && j[|j| - 1] == c[|c| - 1][|c[|c| - 1]| - 1]
    decreases |c|
  {
    if |c| > 1 {
      JoinPartsEnds(c[..|c| - 1]);
    }
  }

  /** A separator-free text is a single segment. */
  lemma {:induction false} SegmentsNoSep(x: string)
    requires Sep !in x
    ensures Segments(x) == [x]
    decreases |x|
  {
    if |x| > 0 {
      SegmentsNoSep(x[..|x| - 1]);
      assert x[..|x| - 1] + [x[|x| - 1]] == x;
    }
  }

  /** One more character: a separator opens a new segment, any other character extends the last. */
  lemma SegmentsSnoc(p: string, c: char)
    ensures c == Sep ==> Segments(p + [c]) == Segments(p) + [[]]
    ensures c != Sep ==>
              Segments(p + [c]) == Segments(p)[..|Segments(p)| - 1] + [Segments(p)[|Segments(p)| - 1] + [c]]
  {
    assert (p + [c])[..|p|] == p;
  }

  /** A separator after the separator: one more empty segment on both sides. */
  lemma SegmentsAfterSepStepSep(a: string, b: string)
    requires Segments(a + [Sep] + b) == Segments(a) + Segments(b)
    ensures Segments(a + [Sep] + (b + [Sep])) == Segments(a) + Segments(b + [Sep])
  {
    var p := a + [Sep] + b;
    assert a + [Sep] + (b + [Sep]) == p + [Sep];
    SegmentsSnoc(p, Sep);
    SegmentsSnoc(b, Sep);
    AppendAssoc(Segments(a), Segments(b), [[]]);
  }

  /** Another character after the separator: both sides extend their last segment. */
  lemma SegmentsAfterSepStepChar(a: string, b: string, c: char)
    requires c != Sep
    requires Segments(a + [Sep] + b) == Segments(a) + Segments(b)
    ensures Segments(a + [Sep] + (b + [c])) == Segments(a) + Segments(b + [c])
  {
    var p := a + [Sep] + b;
    assert a + [Sep] + (b + [c]) == p + [c];
    SegmentsSnoc(p, c);
    SegmentsSnoc(b, c);
    var sa, t := Segments(a), Segments(b);
    DropLastOfAppend(sa, t);
    AppendAssoc(sa, t[..|t| - 1], [t[|t| - 1] + [c]]);
  }

  /** Splitting at a separator: the segments of each side, laid end to end. */
  lemma {:induction false} SegmentsAfterSep(a: string, b: string)
    ensures Segments(a + [Sep] + b) == Segments(a) + Segments(b)
    decreases |b|
  {
    if |b| == 0 {
      assert a + [Sep] + b == a + [Sep];
      SegmentsSnoc(a, Sep);
    } else {
      var b', c := b[..|b| - 1], b[|b| - 1];
      assert b == b' + [c];
      SegmentsAfterSep(a, b');
      if c == Sep {
        SegmentsAfterSepStepSep(a, b');
      } else {
        SegmentsAfterSepStepChar(a, b', c);
      }
    }
  }

  /** Joining one more part adds a separator and the part. */
  lemma JoinPartsSnoc(init: seq<string>, last: string)
    requires |init| > 0
    ensures JoinParts(init + [last]) == JoinParts(init) + [Sep] + last
  {
    assert (init + [last])[..|init|] == init;
  }

  /** One character more: if splitting and joining `p` gives `p` back, it does so for `p + [c]` too. */
  lemma SplitJoinStep(p: string, c: char)
    requires JoinParts(Segments(p)) == p
    ensures JoinParts(Segments(p + [c])) == p + [c]
  {
    SegmentsSnoc(p, c);
    var s := Segments(p);
    if c == Sep {
      JoinPartsSnoc(s, []);
    } else {
      var init, last := s[..|s| - 1], s[|s| - 1];
      assert s == init + [last];
      if |init| > 0 {
        JoinPartsSnoc(init, last + [c]);
        JoinPartsSnoc(init, last);
      } else {
        assert init + [last + [c]] == [last + [c]];
      }
    }
  }

  /** `"/".join(p.split("/")) == p`: splitting loses nothing. */
  lemma {:induction false} SplitJoinRoundTrip(p: string)
    ensures JoinParts(Segments(p)) == p
    decreases |p|
  {
    if |p| > 0 {
      var p', c := p[..|p| - 1], p[|p| - 1];
      assert p == p' + [c];
      SplitJoinRoundTrip(p');
      SplitJoinStep(p', c);
    }
  }


  /** Keeping parts distributes over concatenation. */
  lemma {:induction false} PartsAppend(a: seq<string>, b: seq<string>)
    ensures Parts(a + b) == Parts(a) + Parts(b)
    decreases |b|
  {
    if |b| == 0 {
      assert a + b == a;
    } else {
      assert (a + b)[..|a + b| - 1] == a + b[..|b| - 1];
      assert (a + b)[|a + b| - 1] == b[|b| - 1];
      PartsAppend(a, b[..|b| - 1]);
    }
  }

  /** A sequence of parts is kept whole. */
  lemma {:induction false} PartsOfParts(c: seq<string>)
    requires forall k :: 0 <= k < |c| ==> IsPart(c[k])
    ensures Parts(c) == c
    decreases |c|
  {
    if |c| > 0 {
      PartsOfParts(c[..|c| - 1]);
    }
  }

  /** Separator-free segments, joined and split again, come back unchanged. */
  lemma {:induction false} SegmentsOfJoinParts(c: seq<string>)
    requires |c| > 0
    requires forall k :: 0 <= k < |c| ==> Sep !in c[k]
    ensures Segments(JoinParts(c)) == c
    decreases |c|
  {
    if |c| == 1 {
      assert JoinParts(c) == c[0];
      SegmentsNoSep(c[0]);
    } else {
      var init, last := c[..|c| - 1], c[|c| - 1];
      assert c == init + [last];
      SegmentsOfJoinParts(init);
      JoinPartsSnoc(init, last);
      SegmentsNoSep(last);
      SegmentsAfterSep(JoinParts(init), last);
    }
  }

  /** The components of a part list printed with single separators are that list. */
  lemma ComponentsOfJoinParts(c: seq<string>)
    requires forall k :: 0 <= k < |c| ==> IsPart(c[k]) && Sep !in c[k]
    ensures Components(JoinParts(c)) == c
  {
    if |c| == 0 {
      assert Segments([]) == [[]];
      assert Parts([[]]) == Parts([]) + [];
    } else {
      SegmentsOfJoinParts(c);
      PartsOfParts(c);
    }
  }

  /** A leading separator adds one empty segment and so no part. */
  lemma ComponentsAfterLeadingSep(s: string)
    ensures Components([Sep] + s) == Components(s)
  {
    assert [Sep] + s == [] + [Sep] + s;
    SegmentsAfterSep([], s);
    assert Segments([]) == [[]];
    PartsAppend([[]], Segments(s));
    assert Parts([[]]) == Parts([]) + [];
  }

  /** The first character of the printed parts is never a separator. */
  lemma JoinPartsFirst(c: seq<string>)
    requires |c| > 0
    requires forall k :: 0 <= k < |c| ==> IsPart(c[k]) && Sep !in c[k]
    ensures |JoinParts(c)| > 0 && JoinParts(c)[0] != Sep
  {
    JoinPartsEnds(c);
    assert c[0][0] in c[0];
  }

  /** Printing and re-parsing keeps the anchor. */
  lemma PurePathRootRoundTrip(p: string)
    ensures Root(PurePath(p)) == Root(p)
  {
    var c := Components(p);
    if |c| > 0 {
      ComponentsShape(p);
      JoinPartsFirst(c);
    }
  }

  /** Two leading separators add no part either. */
  lemma ComponentsAfterTwoSeps(s: string)
    ensures Components([Sep, Sep] + s) == Components(s)
  {
    assert [Sep, Sep] == [Sep] + [Sep];
    AppendAssoc([Sep], [Sep], s);
    ComponentsAfterLeadingSep([Sep] + s);
    ComponentsAfterLeadingSep(s);
  }

  /** `.` alone has no parts. */
  lemma ComponentsOfDot()
    ensures Components(".") == []
  {
    SegmentsNoSep(".");
    assert Parts(["."]) == Parts([]) + [];
  }

  /** An anchor adds no part. */
  lemma ComponentsAfterAnchor(root: string, s: string)
    requires root == [] || root == [Sep] || root == [Sep, Sep]
    ensures Components(root + s) == Components(s)
  {
    if root == [] {
      assert root + s == s;
    } else if root == [Sep] {
      ComponentsAfterLeadingSep(s);
    } else {
      ComponentsAfterTwoSeps(s);
    }
  }

  /** An anchor followed by printed parts parses back to those parts. */
  lemma ComponentsOfAnchoredParts(root: string, c: seq<string>)
    requires root == [] || root == [Sep] || root == [Sep, Sep]
    requires forall k :: 0 <= k < |c| ==> IsPart(c[k]) && Sep !in c[k]
    ensures Components(root + JoinParts(c)) == c
  {
    ComponentsOfJoinParts(c);
    ComponentsAfterAnchor(root, JoinParts(c));
  }

  /** Printing and re-parsing keeps the parts. */
  lemma PurePathComponentsRoundTrip(p: string)
    ensures Components(PurePath(p)) == Components(p)
  {
    var root, c := Root(p), Components(p);
    if root == [] && c == [] {
      ComponentsOfDot();
    } else {
      ComponentsShape(p);
      ComponentsOfAnchoredParts(root, c);
    }
  }

  /**
   * The string form reads back as the same path: printing and re-parsing
   * keeps both the anchor and the parts.
   */
  lemma PurePathRoundTrip(p: string)
    ensures Root(PurePath(p)) == Root(p)
    ensures Components(PurePath(p)) == Components(p)
  {
    PurePathRootRoundTrip(p);
    PurePathComponentsRoundTrip(p);
  }

  /** Normalising twice changes nothing more. */
  lemma PurePathIdempotent(p: string)
    ensures PurePath(PurePath(p)) == PurePath(p)
  {
    PurePathRoundTrip(p);
  }

  /** Two texts name the same path exactly when they have the same anchor and the same parts. */
  lemma PurePathEqualIff(p: string, q: string)
    ensures PurePath(p) == PurePath(q) <==> Root(p) == Root(q) && Components(p) == Components(q)
  {
    PurePathRoundTrip(p);
    PurePathRoundTrip(q);
  }

  /** Text that starts with a non-empty directory keeps that directory's anchor. */
  lemma RootOfExtension(dir: string, rest: string)
    requires |dir| > 0
    requires dir[|dir| - 1] == Sep ==> IsRelative(rest)
    requires dir[|dir| - 1] != Sep ==> |rest| > 0 && rest[0] == Sep
    ensures Root(dir + rest) == Root(dir)
  {
    var p := dir + rest;
    assert p[0] == dir[0];
    if |dir| >= 2 {
      assert p[1] == dir[1];
    }
    if |dir| >= 3 {
      assert p[2] == dir[2];
    }
  }

  /** A directory's parts are the parts of the text before its trailing separator. */
  lemma ComponentsTrailingSep(d: string)
    ensures Components(d + [Sep]) == Components(d)
  {
    assert d + [Sep] == d + [Sep] + [];
    SegmentsAfterSep(d, []);
    assert Segments([]) == [[]];
    PartsAppend(Segments(d), [[]]);
    assert Parts([[]]) == Parts([]) + [];
  }

  /** Appending one part after a separator appends it to the parts. */
  lemma ComponentsAppendPart(d: string, name: string)
    requires Sep !in name && IsPart(name)
    ensures Components(d + [Sep] + name) == Components(d) + [name]
  {
    SegmentsAfterSep(d, name);
    SegmentsNoSep(name);
    PartsAppend(Segments(d), [name]);
    assert Parts([name]) == Parts([]) + [name];
  }

  /** The string form of a path with parts is never `.` and does not end in a separator. */
  lemma PurePathWithParts(p: string)
    requires |Components(p)| > 0
    ensures PurePath(p) != "."
    ensures |PurePath(p)| > 0 && PurePath(p)[|PurePath(p)| - 1] != Sep
  {
    var c := Components(p);
    var j := JoinParts(c);
    assert PurePath(p) == Root(p) + j;
    ComponentsShape(p);
    JoinPartsEnds(c);
    var last := c[|c| - 1];
    assert last[|last| - 1] in last;
    if |c| == 1 {
      assert j == c[0];
    } else {
      assert |j| >= 3;
    }
  }

  /** An empty directory is `.`, and joining a single part onto it gives the part. */
  lemma PathJoinEmptyDir(name: string)
    requires Sep !in name && IsPart(name)
    ensures PurePath([]) == "."
    ensures PathJoin([], name) == name
  {
    assert Segments([]) == [[]];
    assert Parts([[]]) == Parts([]) + [];
    SegmentsNoSep(name);
    assert Parts([name]) == Parts([]) + [name];
    assert Components(name) == [name];
    assert name[0] != Sep;
  }

  /** Joining a single part onto a non-empty directory keeps its anchor and appends the part. */
  lemma JoinComponents(dir: string, name: string)
    requires |dir| > 0
    requires Sep !in name && IsPart(name)
    ensures Root(Join(dir, name)) == Root(dir)
    ensures Components(Join(dir, name)) == Components(dir) + [name]
  {
    var p := Join(dir, name);
    assert name[0] != Sep;
    if dir[|dir| - 1] == Sep {
      var d := dir[..|dir| - 1];
      assert dir == d + [Sep];
      assert p == d + [Sep] + name;
      ComponentsTrailingSep(d);
      RootOfExtension(dir, name);
      ComponentsAppendPart(d, name);
    } else {
      RootOfExtension(dir, [Sep] + name);
      assert p == dir + ([Sep] + name);
      ComponentsAppendPart(dir, name);
    }
  }

  /** `PathJoinPart` for a relative directory made only of `.` segments. */
  lemma PathJoinPartDotDir(dir: string, name: string)
    requires |dir| > 0 && |Components(dir)| == 0 && IsRelative(dir)
    requires Sep !in name && IsPart(name)
    ensures PurePath(dir) == "."
    ensures PathJoin(dir, name) == name
  {
    JoinComponents(dir, name);
    assert Components(dir) + [name] == [name];
    assert JoinParts([name]) == name;
  }

  /** `PathJoinPart` for a directory that is only an anchor, `/` or `//`, possibly with `.` segments. */
  lemma PathJoinPartAnchorDir(dir: string, name: string)
    requires |dir| > 0 && |Components(dir)| == 0 && !IsRelative(dir)
    requires Sep !in name && IsPart(name)
    ensures PurePath(dir) == Root(dir)
    ensures PathJoin(dir, name) == Join(PurePath(dir), name)
  {
    JoinComponents(dir, name);
    var root := Root(dir);
    assert Components(dir) + [name] == [name];
    assert JoinParts([name]) == name;
    assert PurePath(dir) == root + [];
    assert PathJoin(dir, name) == root + name;
    assert name[0] != Sep;
    assert root[|root| - 1] == Sep;
  }

  /** `PathJoinPart` for a directory with at least one part. */
  lemma PathJoinPartNested(dir: string, name: string)
    requires |dir| > 0 && |Components(dir)| > 0
    requires Sep !in name && IsPart(name)
    ensures PurePath(dir) != "."
    ensures PathJoin(dir, name) == Join(PurePath(dir), name)
  {
    JoinComponents(dir, name);
    var root, c := Root(dir), Components(dir);
    JoinPartsSnoc(c, name);
    PurePathWithParts(dir);
    assert name[0] != Sep;
    AppendAssoc(root, JoinParts(c) + [Sep], name);
    AppendAssoc(root, JoinParts(c), [Sep]);
  }

  /**
   * `Path(dir) / name` for a single part `name`: the normalised directory
   * joined with the name, or the name alone when the directory is `.`.
   */
  lemma PathJoinPart(dir: string, name: string)
    requires Sep !in name && IsPart(name)
    ensures PathJoin(dir, name) == if PurePath(dir) == "." then name else Join(PurePath(dir), name)
  {
    if |dir| == 0 {
      PathJoinEmptyDir(name);
    } else if |Components(dir)| == 0 && IsRelative(dir) {
      PathJoinPartDotDir(dir, name);
    } else if |Components(dir)| == 0 {
      PathJoinPartAnchorDir(dir, name);
    } else {
      PathJoinPartNested(dir, name);
    }
  }

  /** The base name of `Path(dir) / name` is `name`, for a single part. */
  lemma BaseNameOfPathJoin(dir: string, name: string)
    requires Sep !in name && IsPart(name)
    ensures BaseName(PathJoin(dir, name)) == name
  {
    PathJoinPart(dir, name);
    if PurePath(dir) == "." {
      BaseNameAfterSep([], name);
      assert [] + name == name;
    } else {
      BaseNameOfJoin(PurePath(dir), name);
    }
  }

  /** Within one directory, distinct single parts give distinct paths. */
  lemma PathJoinInjective(dir: string, a: string, b: string)
    requires Sep !in a && IsPart(a) && Sep !in b && IsPart(b)
    requires PathJoin(dir, a) == PathJoin(dir, b)
    ensures a == b
  {
    BaseNameOfPathJoin(dir, a);
    BaseNameOfPathJoin(dir, b);
  }

  /** A leading `./` adds a `.` segment and so no part. */
  lemma ComponentsAfterDot(s: string)
    ensures Components(['.', Sep] + s) == Components(s)
  {
    assert ['.', Sep] + s == "." + [Sep] + s;
    SegmentsAfterSep(".", s);
    SegmentsNoSep(".");
    PartsAppend(["."], Segments(s));
    assert Parts(["."]) == Parts([]) + [];
  }

  /** A `./` after a separator adds no part. */
  lemma ComponentsSkipDot(d: string, s: string)
    ensures Components(d + [Sep] + (['.', Sep] + s)) == Components(d + [Sep] + s)
  {
    SegmentsAfterSep(d, ['.', Sep] + s);
    SegmentsAfterSep(d, s);
    ComponentsAfterDot(s);
    PartsAppend(Segments(d), Segments(['.', Sep] + s));
    PartsAppend(Segments(d), Segments(s));
  }

  /** Equal anchors and equal parts print the same path. */
  lemma PurePathOfSame(p: string, q: string)
    requires Root(p) == Root(q) && Components(p) == Components(q)
    ensures PurePath(p) == PurePath(q)
  {
  }

  /** `DotPrefixIgnored` when the directory is empty. */
  lemma DotPrefixEmptyDir(name: string)
    requires IsRelative(name)
    ensures Root(['.', Sep] + name) == Root(name)
    ensures Components(['.', Sep] + name) == Components(name)
  {
    ComponentsAfterDot(name);
  }

  /** `DotPrefixIgnored` when the directory already ends in a separator. */
  lemma DotPrefixTrailingSep(dir: string, name: string)
    requires |dir| > 0 && dir[|dir| - 1] == Sep
    requires IsRelative(name)
    ensures Root(dir + (['.', Sep] + name)) == Root(dir + name)
    ensures Components(dir + (['.', Sep] + name)) == Components(dir + name)
  {
    var d := dir[..|dir| - 1];
    assert dir == d + [Sep];
    RootOfExtension(dir, ['.', Sep] + name);
    RootOfExtension(dir, name);
    ComponentsSkipDot(d, name);
  }

  /** `DotPrefixIgnored` when `Join` inserts the separator. */
  lemma DotPrefixInsertedSep(dir: string, name: string)
    requires |dir| > 0 && dir[|dir| - 1] != Sep
    requires IsRelative(name)
    ensures Root(dir + [Sep] + (['.', Sep] + name)) == Root(dir + [Sep] + name)
    ensures Components(dir + [Sep] + (['.', Sep] + name)) == Components(dir + [Sep] + name)
  {
    RootOfExtension(dir, [Sep] + (['.', Sep] + name));
    RootOfExtension(dir, [Sep] + name);
    assert dir + [Sep] + (['.', Sep] + name) == dir + ([Sep] + (['.', Sep] + name));
    assert dir + [Sep] + name == dir + ([Sep] + name);
    ComponentsSkipDot(dir, name);
  }

  /** A `./` in front of a relative name is dropped: both spellings give one path. */
  lemma DotPrefixIgnored(dir: string, name: string)
    requires IsRelative(name)
    ensures PathJoin(dir, "./" + name) == PathJoin(dir, name)
  {
    var dotted := ['.', Sep] + name;
    assert "./" + name == dotted;
    if |dir| == 0 {
      DotPrefixEmptyDir(name);
      PurePathOfSame(Join(dir, dotted), Join(dir, name));
    } else if dir[|dir| - 1] == Sep {
      DotPrefixTrailingSep(dir, name);
      PurePathOfSame(Join(dir, dotted), Join(dir, name));
    } else {
      DotPrefixInsertedSep(dir, name);
      PurePathOfSame(Join(dir, dotted), Join(dir, name));
    }
  }

  /** A doubled separator inside a relative path reads as a single one. */
  lemma DoubledSepCollapsed(d: string, s: string)
    requires |d| > 0 && IsRelative(d)
    ensures PurePath(d + [Sep, Sep] + s) == PurePath(d + [Sep] + s)
  {
    assert d + [Sep, Sep] + s == d + [Sep] + ([Sep] + s);
    SegmentsAfterSep(d, [Sep] + s);
    SegmentsAfterSep(d, s);
    ComponentsAfterLeadingSep(s);
    PartsAppend(Segments(d), Segments([Sep] + s));
    PartsAppend(Segments(d), Segments(s));
    PurePathOfSame(d + [Sep, Sep] + s, d + [Sep] + s);
  }

  /** Joining a relative name (which may hold separators) appends its parts to the directory's. */
  lemma ComponentsOfJoin(dir: string, name: string)
    requires IsRelative(name)
    ensures Components(Join(dir, name)) == Components(dir) + Components(name)
  {
    if |dir| == 0 {
      assert Segments([]) == [[]];
      assert Parts([[]]) == Parts([]) + [];
      assert Join(dir, name) == name;
    } else {
      var d := if dir[|dir| - 1] == Sep then dir[..|dir| - 1] else dir;
      if dir[|dir| - 1] == Sep {
        assert dir == d + [Sep];
        ComponentsTrailingSep(d);
      }
      assert Join(dir, name) == d + [Sep] + name;
      SegmentsAfterSep(d, name);
      PartsAppend(Segments(d), Segments(name));
    }
  }

  /** Opening a new last segment commutes with fusing a prefix onto the first one. */
  lemma FuseThenOpen(h: string, u: seq<string>)
    requires |u| > 0
    ensures ([h + u[0]] + u[1..]) + [[]] == [h + (u + [[]])[0]] + (u + [[]])[1..]
  {
    assert (u + [[]])[0] == u[0];
    assert (u + [[]])[1..] == u[1..] + [[]];
  }

  /** `SegmentsOfPrefixed`, one separator further. */
  lemma SegmentsOfPrefixedSep(h: string, t: string)
    requires Segments(h + t) == [h + Segments(t)[0]] + Segments(t)[1..]
    ensures Segments(h + (t + [Sep])) == [h + Segments(t + [Sep])[0]] + Segments(t + [Sep])[1..]
  {
    assert h + (t + [Sep]) == (h + t) + [Sep];
    SegmentsSnoc(h + t, Sep);
    SegmentsSnoc(t, Sep);
    FuseThenOpen(h, Segments(t));
  }

  /** Extending the last segment commutes with fusing a prefix onto the first one. */
  lemma FuseThenExtend(h: string, u: seq<string>, c: char)
    requires |u| > 0
    ensures var w := [h + u[0]] + u[1..];
            var v := u[..|u| - 1] + [u[|u| - 1] + [c]];
            w[..|w| - 1] + [w[|w| - 1] + [c]] == [h + v[0]] + v[1..]
  {
    var w := [h + u[0]] + u[1..];
    var v := u[..|u| - 1] + [u[|u| - 1] + [c]];
    if |u| == 1 {
      assert w == [h + u[0]];
      assert v == [u[0] + [c]];
      assert (h + u[0]) + [c] == h + (u[0] + [c]);
    } else {
      assert w[..|w| - 1] == [h + u[0]] + u[1..|u| - 1];
      assert w[|w| - 1] == u[|u| - 1];
      assert v[0] == u[0];
      assert v[1..] == u[1..|u| - 1] + [u[|u| - 1] + [c]];
    }
  }

  /** `SegmentsOfPrefixed`, one non-separator character further. */
  lemma SegmentsOfPrefixedChar(h: string, t: string, c: char)
    requires c != Sep
    requires Segments(h + t) == [h + Segments(t)[0]] + Segments(t)[1..]
    ensures Segments(h + (t + [c])) == [h + Segments(t + [c])[0]] + Segments(t + [c])[1..]
  {
    assert h + (t + [c]) == (h + t) + [c];
    SegmentsSnoc(h + t, c);
    SegmentsSnoc(t, c);
    FuseThenExtend(h, Segments(t), c);
  }

  /** A separator-free prefix fuses with the first segment of what follows it. */
  lemma {:induction false} SegmentsOfPrefixed(h: string, t: string)
    requires Sep !in h
    ensures Segments(h + t) == [h + Segments(t)[0]] + Segments(t)[1..]
    decreases |t|
  {
    if |t| == 0 {
      assert h + t == h;
      SegmentsNoSep(h);
      assert Segments(t) == [[]];
    } else {
      var t', c := t[..|t| - 1], t[|t| - 1];
      assert t == t' + [c];
      SegmentsOfPrefixed(h, t');
      if c == Sep {
        SegmentsOfPrefixedSep(h, t');
      } else {
        SegmentsOfPrefixedChar(h, t', c);
      }
    }
  }

  /** The first part of a text that starts with a separator-free prefix of two or more characters extends that prefix. */
  lemma FirstComponentOfPrefixed(h: string, t: string)
    requires Sep !in h && |h| >= 2
    ensures |Components(h + t)| > 0
    ensures Components(h + t)[0] == h + Segments(t)[0]
  {
    SegmentsOfPrefixed(h, t);
    var first := h + Segments(t)[0];
    assert IsPart(first);
    PartsAppend([first], Segments(t)[1..]);
    assert Parts([first]) == Parts([]) + [first];
  }
}

=== FILE: paths.dfy ===
/**
 * POSIX path composition as done by Python's `os.path.join` with two
 * components, and the final-component projection `os.path.basename`.
 * Both the merge (output and input paths) and the exporter (per-day file
 * paths) build their paths with `Join`.
 */
module Paths {

  const Sep: char := '/'

  /** The extension of the per-day files and of the files the merge reads. */
  const CsvExtension: string := ".csv"

  /** A path component that `Join` appends instead of letting it replace the directory. */
  predicate IsRelative(name: string) {
    |name| == 0 || name[0] != Sep
  }

  predicate EndsWith(s: string, suffix: string) {
    |suffix| <= |s| && s[|s| - |suffix|..] == suffix
  }

  /**
   * `os.path.join(dir, name)`: an absolute `name` replaces `dir`; otherwise
   * `name` is appended, with one separator inserted unless `dir` is empty or
   * already ends in a separator.
   */
  function Join(dir: string, name: string): (p: string)
    ensures EndsWith(p, name)
    ensures !IsRelative(name) ==> p == name
    ensures IsRelative(name) ==> |dir| <= |p| <= |dir| + 1 + |name| && p[..|dir|] == dir
    ensures IsRelative(name) && |p| > |dir| + |name| ==> p[|dir|] == Sep
    ensures IsRelative(name) ==> |p| >= |dir| + |name|
    ensures IsRelative(name) ==> (|p| == |dir| + |name| <==> |dir| == 0 || dir[|dir| - 1] == Sep)
  {
    if !IsRelative(name) then name
    else if |dir| == 0 || dir[|dir| - 1] == Sep then dir + name
    else dir + [Sep] + name
  }

  /** `os.path.basename(p)`: everything after the last separator. */
  function BaseName(p: string): (b: string)
    ensures Sep !in b
    ensures EndsWith(p, b)
    ensures |b| < |p| ==> p[|p| - |b| - 1] == Sep
  {
    if |p| == 0 || p[|p| - 1] == Sep then ""
    else BaseName(p[..|p| - 1]) + [p[|p| - 1]]
  }

  /** A separator-free name placed after a separator (or at the start) is the base name. */
  lemma {:induction false} BaseNameAfterSep(pre: string, name: string)
    requires Sep !in name
    requires |pre| == 0 || pre[|pre| - 1] == Sep
    ensures BaseName(pre + name) == name
    decreases |name|
  {
    if |name| == 0 {
      assert pre + name == pre;
    } else {
      var init := name[..|name| - 1];
      assert (pre + name)[..|pre + name| - 1] == pre + init;
      BaseNameAfterSep(pre, init);
      assert init + [name[|name| - 1]] == name;
    }
  }

  /** Joining a directory entry's name onto a directory gives a path whose base name is that entry. */
  lemma BaseNameOfJoin(dir: string, name: string)
    requires Sep !in name
    ensures BaseName(Join(dir, name)) == name
  {
    if |dir| == 0 || dir[|dir| - 1] == Sep {
      BaseNameAfterSep(dir, name);
    } else {
      assert dir + [Sep] + name == (dir + [Sep]) + name;
      BaseNameAfterSep(dir + [Sep], name);
    }
  }

  /** Within one directory, distinct relative names give distinct paths: no file shadows another. */
  lemma JoinInjective(dir: string, a: string, b: string)
    requires IsRelative(a) && IsRelative(b)
    requires Join(dir, a) == Join(dir, b)
    ensures a == b
  {
    var pre := if |dir| == 0 || dir[|dir| - 1] == Sep then dir else dir + [Sep];
    assert Join(dir, a) == pre + a;
    assert Join(dir, b) == pre + b;
    assert a == (pre + a)[|pre|..];
    assert b == (pre + b)[|pre|..];
  }
}

=== FILE: pipeline.dfy ===
/**
 * The per-day file pipeline end to end: the exporter writes one file per
 * exchange into its directory, and the processor merges that directory.
 * A run's exports are listed in batch order; any other listing order of the
 * same files is a different `batches` sequence. The exporter is handed a
 * dictionary, so one run never sees an exchange twice. The listing is only
 * defined for separator-free exchange codes and dates, whose files are
 * entries of the directory itself, and the lemmas about it also ask for
 * distinct exchange codes: with both, the files of a run have distinct
 * names, so the listing is one entry per written file. The directory is
 * taken to start empty: files of earlier runs are not part of it.
 */
module Pipeline {
  import opened Wrappers
  import opened Paths
  import opened Columns
  import opened Tables
  import Pathlib
  import Exporter
  import Processor

  /** One exchange's payload for the run. */
  datatype Batch = Batch(exchange: string, data: Exporter.Payload)

  /** No two batches of a run name the same exchange, as the keys of a dictionary. */
  predicate DistinctExchanges(batches: seq<Batch>) {
    forall i, j :: 0 <= i < j < |batches| ==> batches[i].exchange != batches[j].exchange
  }

  /**
   * The batches of an exchange dictionary, as `exchange_data.items()` yields
   * them: `order` lists every key exactly once.
   */
  function BatchesOf(exchangeData: map<string, Exporter.Payload>, order: seq<string>): (r: seq<Batch>)
    requires forall k :: 0 <= k < |order| ==> order[k] in exchangeData
    requires forall x :: x in exchangeData ==> x in order
    requires forall i, j :: 0 <= i < j < |order| ==> order[i] != order[j]
    ensures |r| == |order| && DistinctExchanges(r)
    ensures forall k :: 0 <= k < |r| ==> r[k] == Batch(order[k], exchangeData[order[k]])
    ensures forall x :: x in exchangeData <==> exists k :: 0 <= k < |r| && r[k].exchange == x
  {
    var r := seq(|order|, k requires 0 <= k < |order| => Batch(order[k], exchangeData[order[k]]));
    forall x | x in exchangeData
      ensures exists k :: 0 <= k < |r| && r[k].exchange == x
    {
      var k :| 0 <= k < |order| && order[k] == x;
      assert r[k].exchange == x;
    }
    r
  }

  /** A file name of the exporter can be listed in a directory: it has no separator. */
  predicate ListableBatch(b: Batch, dateStamp: string) {
    Sep !in b.exchange && Sep !in dateStamp
  }

  /** The directory entry one export leaves behind, if it wrote a file. */
  function DailyFile(e: Exporter.CsvExporter, b: Batch, dateStamp: string): (r: seq<Processor.Entry>)
    requires ListableBatch(b, dateStamp)
    ensures |r| <= 1
    ensures |r| == 1 <==> b.data.Records? && |b.data.records| > 0
    ensures |r| == 1 ==> r[0].table.header == Exporter.Header && WellFormed(r[0].table)
    ensures |r| == 1 ==> r[0].table.rows == Exporter.MapRecords(b.data.records)
    ensures |r| == 1 ==> r[0].name == BaseName(Pathlib.PathJoin(e.outputDir, Exporter.FileName(b.exchange, dateStamp)))
  {
    var out := Exporter.ExportStockData(e, b.exchange, b.data, dateStamp);
    if out.written.Some? then [Processor.Entry(BaseName(out.path), out.written.value)] else []
  }

  /** The directory entries the exports of `batches` leave behind: one per batch that wrote a file. */
  function DailyFiles(e: Exporter.CsvExporter, batches: seq<Batch>, dateStamp: string): (r: seq<Processor.Entry>)
    requires forall i :: 0 <= i < |batches| ==> ListableBatch(batches[i], dateStamp)
    ensures |r| <= |batches|
  {
    if |batches| == 0 then []
    else DailyFile(e, batches[0], dateStamp) + DailyFiles(e, batches[1..], dateStamp)
  }

  /** The quote records of all list payloads, batch after batch. */
  function QuoteRecords(batches: seq<Batch>): seq<Exporter.Record> {
    if |batches| == 0 then []
    else BatchRecords(batches[0]) + QuoteRecords(batches[1..])
  }

  /** The records a batch carries; a payload that is not a list carries none. */
  function BatchRecords(b: Batch): seq<Exporter.Record> {
    if b.data.Records? then b.data.records else []
  }

  /** Every file the exporter names is picked up by the merge's extension test. */
  lemma ExportedNameIsCsv(exchange: string, dateStamp: string)
    ensures Processor.IsCsvName(Exporter.FileName(exchange, dateStamp))
  {
    Processor.CsvSuffixQualifies(Exporter.FileName(exchange, dateStamp));
  }

  /** A listable export's file is picked up by the merge. */
  lemma DailyFileSelected(e: Exporter.CsvExporter, b: Batch, dateStamp: string)
    requires ListableBatch(b, dateStamp)
    ensures Processor.SelectCsv(DailyFile(e, b, dateStamp)) == DailyFile(e, b, dateStamp)
  {
    var r := DailyFile(e, b, dateStamp);
    if |r| == 1 {
      Exporter.ExportStockDataPath(e, b.exchange, b.data, dateStamp);
      assert r[0].name == Exporter.FileName(b.exchange, dateStamp);
      ExportedNameIsCsv(b.exchange, dateStamp);
      assert r == [r[0]];
      Processor.SelectCsvSingle(r[0]);
    }
  }

  /** Every file holds the exporter's header and is well formed. */
  predicate QuoteFiles(files: seq<Processor.Entry>) {
    forall k :: 0 <= k < |files| ==> files[k].table.header == Exporter.Header && WellFormed(files[k].table)
  }

  /** Listings of quote files laid end to end are quote files. */
  lemma QuoteFilesAppend(a: seq<Processor.Entry>, b: seq<Processor.Entry>)
    requires QuoteFiles(a) && QuoteFiles(b)
    ensures QuoteFiles(a + b)
  {
    forall k | |a| <= k < |a + b|
      ensures (a + b)[k] == b[k - |a|]
    {
    }
  }

  /** The listed per-day files all qualify, hold the exporter's header, and are well formed. */
  lemma {:induction false} DailyFilesShape(e: Exporter.CsvExporter, batches: seq<Batch>, dateStamp: string)
    requires forall i :: 0 <= i < |batches| ==> ListableBatch(batches[i], dateStamp)
    ensures Processor.SelectCsv(DailyFiles(e, batches, dateStamp)) == DailyFiles(e, batches, dateStamp)
    ensures QuoteFiles(DailyFiles(e, batches, dateStamp))
    decreases |batches|
  {
    if |batches| > 0 {
      var head := DailyFile(e, batches[0], dateStamp);
      var tail := DailyFiles(e, batches[1..], dateStamp);
      DailyFilesShape(e, batches[1..], dateStamp);
      Processor.SelectCsvAppend(head, tail);
      DailyFileSelected(e, batches[0], dateStamp);
      QuoteFilesAppend(head, tail);
    }
  }

  /** Whether a batch's export writes a file. */
  predicate Writes(b: Batch) {
    b.data.Records? && |b.data.records| > 0
  }

  /** The batches whose exports write a file, in batch order. */
  function Writers(batches: seq<Batch>): (r: seq<Batch>)
    ensures |r| <= |batches|
  {
    if |batches| == 0 then []
    else (if Writes(batches[0]) then [batches[0]] else []) + Writers(batches[1..])
  }

  /** Every writer is one of the batches. */
  lemma {:induction false} WritersFromBatches(batches: seq<Batch>)
    ensures forall k :: 0 <= k < |Writers(batches)| ==> Writers(batches)[k] in batches
    decreases |batches|
  {
    if |batches| > 0 {
      WritersFromBatches(batches[1..]);
      var head := if Writes(batches[0]) then [batches[0]] else [];
      var w := Writers(batches);
      forall k | 0 <= k < |w|
        ensures w[k] in batches
      {
        if k >= |head| {
          assert w[k] == Writers(batches[1..])[k - |head|];
          assert w[k] in batches[1..];
        }
      }
    }
  }

  /** Dropping the first batch keeps the exchange codes distinct. */
  lemma DistinctExchangesTail(batches: seq<Batch>)
    requires |batches| > 0 && DistinctExchanges(batches)
    ensures DistinctExchanges(batches[1..])
  {
    var tail := batches[1..];
    forall i, j | 0 <= i < j < |tail|
      ensures tail[i].exchange != tail[j].exchange
    {
      assert tail[i] == batches[i + 1] && tail[j] == batches[j + 1];
    }
  }

  /** Keeping only the writers keeps the exchange codes distinct. */
  lemma {:induction false} WritersDistinct(batches: seq<Batch>)
    requires DistinctExchanges(batches)
    ensures DistinctExchanges(Writers(batches))
    decreases |batches|
  {
    if |batches| > 0 {
      var tail := batches[1..];
      DistinctExchangesTail(batches);
      WritersDistinct(tail);
      WritersFromBatches(tail);
      var wt := Writers(tail);
      forall k | 0 <= k < |wt|
        ensures wt[k].exchange != batches[0].exchange
      {
        var i :| 0 <= i < |tail| && tail[i] == wt[k];
        assert tail[i] == batches[i + 1];
      }
    }
  }

  /** One batch leaves a file exactly when it writes, and the file carries the exporter's name. */
  lemma DailyFileNamed(e: Exporter.CsvExporter, b: Batch, dateStamp: string)
    requires ListableBatch(b, dateStamp)
    ensures |DailyFile(e, b, dateStamp)| == (if Writes(b) then 1 else 0)
    ensures NamedAfter(DailyFile(e, b, dateStamp), if Writes(b) then [b] else [], dateStamp)
  {
    var r := DailyFile(e, b, dateStamp);
    if |r| == 1 {
      assert r[0].name == Exporter.FileName(b.exchange, dateStamp) by {
        Exporter.ExportStockDataPath(e, b.exchange, b.data, dateStamp);
      }
    }
  }

  /** Each listed file carries the name of the export at the same place. */
  predicate NamedAfter(files: seq<Processor.Entry>, writers: seq<Batch>, dateStamp: string) {
    |files| == |writers| &&
    forall k :: 0 <= k < |writers| ==> files[k].name == Exporter.FileName(writers[k].exchange, dateStamp)
  }

  /** Naming files after their exports survives laying listings end to end. */
  lemma NamedAppend(f1: seq<Processor.Entry>, f2: seq<Processor.Entry>, w1: seq<Batch>, w2: seq<Batch>, dateStamp: string)
    requires NamedAfter(f1, w1, dateStamp) && NamedAfter(f2, w2, dateStamp)
    ensures NamedAfter(f1 + f2, w1 + w2, dateStamp)
  {
    var f, w := f1 + f2, w1 + w2;
    forall k | 0 <= k < |w|
      ensures f[k].name == Exporter.FileName(w[k].exchange, dateStamp)
    {
      if k >= |w1| {
        assert f[k] == f2[k - |f1|] && w[k] == w2[k - |w1|];
      }
    }
  }

  /** The k-th listed file is the k-th writer's file. */
  lemma {:induction false} DailyFilesNamed(e: Exporter.CsvExporter, batches: seq<Batch>, dateStamp: string)
    requires forall i :: 0 <= i < |batches| ==> ListableBatch(batches[i], dateStamp)
    ensures NamedAfter(DailyFiles(e, batches, dateStamp), Writers(batches), dateStamp)
    decreases |batches|
  {
    if |batches| > 0 {
      DailyFilesNamed(e, batches[1..], dateStamp);
      var b := batches[0];
      DailyFileNamed(e, b, dateStamp);
      var whead: seq<Batch> := if Writes(b) then [b] else [];
      NamedAppend(DailyFile(e, b, dateStamp), DailyFiles(e, batches[1..], dateStamp), whead, Writers(batches[1..]), dateStamp);
    }
  }

  /**
   * With listable batches and distinct exchanges, no two files of a run share
   * a name: the listing holds one entry per written file and none is
   * overwritten.
   */
  lemma DailyFilesNamesDistinct(e: Exporter.CsvExporter, batches: seq<Batch>, dateStamp: string)
    requires forall i :: 0 <= i < |batches| ==> ListableBatch(batches[i], dateStamp)
    requires DistinctExchanges(batches)
    ensures forall i, j :: 0 <= i < j < |DailyFiles(e, batches, dateStamp)| ==>
              DailyFiles(e, batches, dateStamp)[i].name != DailyFiles(e, batches, dateStamp)[j].name
  {
    DailyFilesNamed(e, batches, dateStamp);
    WritersDistinct(batches);
    var files := DailyFiles(e, batches, dateStamp);
    var w := Writers(batches);
    forall i, j | 0 <= i < j < |files|
      ensures files[i].name != files[j].name
    {
      if files[i].name == files[j].name {
        Exporter.FileNameInjective(w[i].exchange, w[j].exchange, dateStamp);
      }
    }
  }

  /** Rows of tables laid end to end: the rows of a concatenation are the concatenated rows. */
  lemma {:induction false} AllRowsAppend(a: seq<Table>, b: seq<Table>)
    ensures AllRows(a + b) == AllRows(a) + AllRows(b)
    decreases |a|
  {
    if |a| > 0 {
      assert (a + b)[1..] == a[1..] + b;
      AllRowsAppend(a[1..], b);
    } else {
      assert a + b == b;
    }
  }

  /** Taking the tables of a listing distributes over concatenation. */
  lemma TablesOfAppend(a: seq<Processor.Entry>, b: seq<Processor.Entry>)
    ensures Processor.TablesOf(a + b) == Processor.TablesOf(a) + Processor.TablesOf(b)
  {
  }

  /** The rows of one export's file are its batch's records, mapped. */
  lemma DailyFileRows(e: Exporter.CsvExporter, b: Batch, dateStamp: string)
    requires ListableBatch(b, dateStamp)
    ensures AllRows(Processor.TablesOf(DailyFile(e, b, dateStamp))) == Exporter.MapRecords(BatchRecords(b))
  {
    var head := DailyFile(e, b, dateStamp);
    if |head| == 1 {
      assert Processor.TablesOf(head) == [head[0].table];
      assert AllRows(Processor.TablesOf(head)) == head[0].table.rows + AllRows([]);
    } else {
      assert Processor.TablesOf(head) == [];
      assert Exporter.MapRecords(BatchRecords(b)) == [];
    }
  }

  /** A run leaves no file exactly when no batch had records. */
  lemma {:induction false} DailyFilesEmpty(e: Exporter.CsvExporter, batches: seq<Batch>, dateStamp: string)
    requires forall i :: 0 <= i < |batches| ==> ListableBatch(batches[i], dateStamp)
    ensures |DailyFiles(e, batches, dateStamp)| == 0 <==> |QuoteRecords(batches)| == 0
    decreases |batches|
  {
    if |batches| > 0 {
      DailyFilesEmpty(e, batches[1..], dateStamp);
    }
  }

  /** The rows of the listed files, file after file, are the mapped quote records, batch after batch. */
  lemma {:induction false} DailyFilesRows(e: Exporter.CsvExporter, batches: seq<Batch>, dateStamp: string)
    requires forall i :: 0 <= i < |batches| ==> ListableBatch(batches[i], dateStamp)
    requires DistinctExchanges(batches)
    ensures AllRows(Processor.TablesOf(DailyFiles(e, batches, dateStamp))) == Exporter.MapRecords(QuoteRecords(batches))
    decreases |batches|
  {
    if |batches| > 0 {
      var head := DailyFile(e, batches[0], dateStamp);
      var tail := DailyFiles(e, batches[1..], dateStamp);
      DistinctExchangesTail(batches);
      DailyFilesRows(e, batches[1..], dateStamp);
      DailyFileRows(e, batches[0], dateStamp);
      assert DailyFiles(e, batches, dateStamp) == head + tail;
      TablesOfAppend(head, tail);
      AllRowsAppend(Processor.TablesOf(head), Processor.TablesOf(tail));
      Exporter.MapRecordsAppend(BatchRecords(batches[0]), QuoteRecords(batches[1..]));
    }
  }

  /** Merging the files of one export run fails exactly when no batch had records. */
  lemma MergeExportedFilesFails(p: Processor.CsvProcessor, e: Exporter.CsvExporter, batches: seq<Batch>, dateStamp: string)
    requires forall i :: 0 <= i < |batches| ==> ListableBatch(batches[i], dateStamp)
    requires DistinctExchanges(batches)
    ensures Processor.CombineCsvFiles(p, DailyFiles(e, batches, dateStamp)).Failure? <==> |QuoteRecords(batches)| == 0
  {
    var listing := DailyFiles(e, batches, dateStamp);
    DailyFilesShape(e, batches, dateStamp);
    DailyFilesEmpty(e, batches, dateStamp);
    if |listing| > 0 {
      assert listing[0] in Processor.SelectCsv(listing);
    }
  }

  /**
   * Merging the files one export run wrote: the merged header is
   * `symbol,date,close` and its rows are every quote record mapped, batch
   * after batch, record after record.
   */
  lemma MergeExportedFiles(e: Exporter.CsvExporter, batches: seq<Batch>, dateStamp: string)
    requires forall i :: 0 <= i < |batches| ==> ListableBatch(batches[i], dateStamp)
    requires DistinctExchanges(batches)
    requires |QuoteRecords(batches)| > 0
    ensures Processor.MergedTable(DailyFiles(e, batches, dateStamp)).header == Exporter.Header
    ensures Processor.MergedTable(DailyFiles(e, batches, dateStamp)).rows == Exporter.MapRecords(QuoteRecords(batches))
  {
    var listing := DailyFiles(e, batches, dateStamp);
    DailyFilesShape(e, batches, dateStamp);
    DailyFilesEmpty(e, batches, dateStamp);
    DailyFilesRows(e, batches, dateStamp);
    var ts := Processor.TablesOf(listing);
    assert forall i :: 0 <= i < |ts| ==> ts[i] == listing[i].table;
    ConcatSameHeader(ts, Exporter.Header);
  }

  /** Row-count form: the merged file holds as many rows as the exporter received records. */
  lemma MergedRowCount(e: Exporter.CsvExporter, batches: seq<Batch>, dateStamp: string)
    requires forall i :: 0 <= i < |batches| ==> ListableBatch(batches[i], dateStamp)
    requires DistinctExchanges(batches)
    requires |QuoteRecords(batches)| > 0
    ensures |Processor.MergedTable(DailyFiles(e, batches, dateStamp)).rows| == |QuoteRecords(batches)|
  {
    MergeExportedFiles(e, batches, dateStamp);
  }
}

=== FILE: processor.dfy ===
/**
 * `CSVProcessor` of src/csv_processor.py: combine every CSV file of an input
 * directory into one `prices.csv` under an output directory.
 *
 * The directory listing is an input: a sequence of entries in the order
 * `os.listdir` produced them (that order is not sorted or otherwise fixed),
 * each entry carrying the table `pandas.read_csv` parsed from it. The write
 * of the combined file is the `contents` and `file` of the `Merged` result;
 * a failure writes nothing.
 */
module Processor {
  import opened Wrappers
  import opened Paths
  import opened Columns
  import opened Tables

  const OutputFileName: string := "prices.csv"
  const NoCsvMessage: string := "No CSV files found in the input directory."

  /** The processor's configuration; `outputFile` is derived once, at construction. */
  datatype CsvProcessor = CsvProcessor(inputDir: string, outputDir: string, outputFile: string)

  /** One entry of the input directory listing, with the table parsed from it. */
  datatype Entry = Entry(name: string, table: Table)

  /** The `FileNotFoundError` raised when nothing qualifies. */
  datatype MergeError = FileNotFound(message: string)

  /** A successful merge: `file` is both the path written and the path returned. */
  datatype Merged = Merged(file: string, sources: seq<string>, contents: Table)

  /** `CSVProcessor(input_dir, output_dir)`: the output file is `prices.csv` inside `output_dir`. */
  function NewCsvProcessor(inputDir: string, outputDir: string): (p: CsvProcessor)
    ensures p.inputDir == inputDir && p.outputDir == outputDir
    ensures BaseName(p.outputFile) == OutputFileName
    ensures p.outputFile == outputDir + OutputFileName || p.outputFile == outputDir + "/" + OutputFileName
    ensures p.outputFile == outputDir + OutputFileName <==> |outputDir| == 0 || outputDir[|outputDir| - 1] == Sep
  {
    BaseNameOfJoin(outputDir, OutputFileName);
    CsvProcessor(inputDir, outputDir, Join(outputDir, OutputFileName))
  }

  /** `str.lower` on the characters that matter for the extension test (see `IsCsvNameIff`). */
  function LowerChar(c: char): char {
    if 'A' <= c <= 'Z' then (c as int + 32) as char else c
  }

  function Lower(s: string): (r: string)
    ensures |r| == |s|
    ensures forall i :: 0 <= i < |s| ==> r[i] == LowerChar(s[i])
  {
    seq(|s|, i requires 0 <= i < |s| => LowerChar(s[i]))
  }

  /** `f.lower().endswith(".csv")`. */
  predicate IsCsvName(name: string) {
    EndsWith(Lower(name), CsvExtension)
  }

  /** The extension test, character by character: `.csv` in any mix of cases and nothing else. */
  lemma IsCsvNameIff(name: string)
    ensures IsCsvName(name) <==>
              && |name| >= 4
              && name[|name| - 4] == '.'
              && name[|name| - 3] in "cC"
              && name[|name| - 2] in "sS"
              && name[|name| - 1] in "vV"
  {
    if |name| >= 4 {
      var n := |name|;
      var tail := Lower(name)[n - 4..];
      assert tail == [LowerChar(name[n - 4]), LowerChar(name[n - 3]), LowerChar(name[n - 2]), LowerChar(name[n - 1])];
    }
  }

  /** A name that ends in `.csv`, lower case, passes the extension test. */
  lemma CsvSuffixQualifies(name: string)
    requires EndsWith(name, CsvExtension)
    ensures IsCsvName(name)
  {
    var n := |name|;
    assert name[n - 4..] == CsvExtension;
    assert name[n - 4] == '.' && name[n - 3] == 'c' && name[n - 2] == 's' && name[n - 1] == 'v';
    IsCsvNameIff(name);
  }

  /** Upper-case extensions qualify; other extensions, and names that merely contain `csv`, do not. */
  lemma CsvNameExamples()
    ensures IsCsvName("A.CSV") && IsCsvName("NYSE_quotes_2026-01-21.csv")
    ensures !IsCsvName("a.txt") && !IsCsvName("csv") && !IsCsvName("a.csv.bak")
  {
    IsCsvNameIff("A.CSV");
    IsCsvNameIff("NYSE_quotes_2026-01-21.csv");
    IsCsvNameIff("a.txt");
    IsCsvNameIff("csv");
    IsCsvNameIff("a.csv.bak");
  }

  /** The listing entries the comprehension keeps, in listing order. */
  function SelectCsv(listing: seq<Entry>): (r: seq<Entry>)
    ensures |r| <= |listing|
    ensures forall e :: e in r <==> e in listing && IsCsvName(e.name)
  {
    if |listing| == 0 then []
    else (if IsCsvName(listing[0].name) then [listing[0]] else []) + SelectCsv(listing[1..])
  }

  /** Selection distributes over concatenation of listings: it keeps the listing's order. */
  lemma {:induction false} SelectCsvAppend(a: seq<Entry>, b: seq<Entry>)
    ensures SelectCsv(a + b) == SelectCsv(a) + SelectCsv(b)
    decreases |a|
  {
    if |a| > 0 {
      assert (a + b)[1..] == a[1..] + b;
      SelectCsvAppend(a[1..], b);
    } else {
      assert a + b == b;
    }
  }

  /** Selection of a single entry keeps it exactly when its name has the `.csv` extension. */
  lemma SelectCsvSingle(e: Entry)
    ensures SelectCsv([e]) == if IsCsvName(e.name) then [e] else []
  {
    assert [e][1..] == [];
  }

  /** Selecting twice selects nothing more. */
  lemma {:induction false} SelectCsvIdempotent(listing: seq<Entry>)
    ensures SelectCsv(SelectCsv(listing)) == SelectCsv(listing)
    decreases |listing|
  {
    if |listing| > 0 {
      var head := if IsCsvName(listing[0].name) then [listing[0]] else [];
      SelectCsvAppend(head, SelectCsv(listing[1..]));
      if IsCsvName(listing[0].name) {
        SelectCsvSingle(listing[0]);
      } else {
        assert head == [];
        assert head + SelectCsv(listing[1..]) == SelectCsv(listing[1..]);
      }
      SelectCsvIdempotent(listing[1..]);
    }
  }

  function TablesOf(entries: seq<Entry>): (ts: seq<Table>)
    ensures |ts| == |entries|
    ensures forall k :: 0 <= k < |entries| ==> ts[k] == entries[k].table
  {
    seq(|entries|, k requires 0 <= k < |entries| => entries[k].table)
  }

  /** `[os.path.join(input_dir, f) for f in os.listdir(input_dir) if ...]`: the files read, in order. */
  function CsvPaths(inputDir: string, listing: seq<Entry>): (r: seq<string>)
    ensures |r| == |SelectCsv(listing)|
    ensures forall k :: 0 <= k < |r| ==> EndsWith(r[k], SelectCsv(listing)[k].name)
    ensures forall k :: 0 <= k < |r| && IsRelative(SelectCsv(listing)[k].name) ==>
              |inputDir| + |SelectCsv(listing)[k].name| <= |r[k]| && r[k][..|inputDir|] == inputDir
    ensures forall k :: 0 <= k < |r| && !IsRelative(SelectCsv(listing)[k].name) ==> r[k] == SelectCsv(listing)[k].name
    ensures forall k :: 0 <= k < |r| && Sep !in SelectCsv(listing)[k].name ==>
              BaseName(r[k]) == SelectCsv(listing)[k].name
  {
    var selected := SelectCsv(listing);
    forall k | 0 <= k < |selected| && Sep !in selected[k].name
      ensures BaseName(Join(inputDir, selected[k].name)) == selected[k].name
    {
      BaseNameOfJoin(inputDir, selected[k].name);
    }
    seq(|selected|, k requires 0 <= k < |selected| => Join(inputDir, selected[k].name))
  }

  /**
   * The table a merge writes: `pd.concat` of the tables of the selected
   * files, in listing order.
   */
  function MergedTable(listing: seq<Entry>): (t: Table)
    ensures WellFormed(t)
    ensures |t.rows| == TotalRows(TablesOf(SelectCsv(listing)))
    ensures forall e, c :: e in listing && IsCsvName(e.name) && c in e.table.header ==> c in t.header
    ensures forall c :: c in t.header ==> exists e :: e in listing && IsCsvName(e.name) && c in e.table.header
  {
    var selected := SelectCsv(listing);
    var ts := TablesOf(selected);
    assert forall e :: e in selected ==> e.table in ts by {
      forall e | e in selected ensures e.table in ts {
        var k :| 0 <= k < |selected| && selected[k] == e;
        assert ts[k] == e.table;
      }
    }
    var combined := Concat(ts);
    assert forall c :: c in combined.header ==> exists e :: e in selected && c in e.table.header by {
      forall c | c in combined.header ensures exists e :: e in selected && c in e.table.header {
        var i :| 0 <= i < |ts| && c in ts[i].header;
        assert selected[i] in selected;
      }
    }
    combined
  }

  /** `CSVProcessor.combine_csv_files` over a given directory listing. */
  function CombineCsvFiles(p: CsvProcessor, listing: seq<Entry>): (r: Result<Merged, MergeError>)
    ensures r.Failure? <==> forall e :: e in listing ==> !IsCsvName(e.name)
    ensures r.Failure? ==> r.error == FileNotFound(NoCsvMessage)
    ensures r.Success? ==> r.value.file == p.outputFile
    ensures r.Success? ==> |r.value.sources| == |SelectCsv(listing)| > 0
    ensures r.Success? ==> r.value.sources == CsvPaths(p.inputDir, listing)
    ensures r.Success? ==> r.value.contents == MergedTable(listing)
  {
    var selected := SelectCsv(listing);
    if |selected| == 0 then
      Failure(FileNotFound(NoCsvMessage))
    else
      assert selected[0] in listing;
      Success(Merged(p.outputFile, CsvPaths(p.inputDir, listing), MergedTable(listing)))
  }

  /** The merged header is the ordered union of the selected files' headers, in listing order. */
  lemma MergedHeaderOrder(listing: seq<Entry>)
    ensures Distinct(MergedTable(listing).header)
    ensures var all := Flatten(Headers(TablesOf(SelectCsv(listing))));
            forall a, b :: 0 <= a < |MergedTable(listing).header| && 0 <= b < |MergedTable(listing).header| ==>
              (a < b <==> FirstIndex(all, MergedTable(listing).header[a]) < FirstIndex(all, MergedTable(listing).header[b]))
  {
    ConcatHeaderOrder(TablesOf(SelectCsv(listing)));
  }

  /** Entries without the `.csv` extension have no influence on the merge. */
  lemma CombineIgnoresOtherEntries(p: CsvProcessor, listing: seq<Entry>)
    ensures CombineCsvFiles(p, SelectCsv(listing)).Success? == CombineCsvFiles(p, listing).Success?
    ensures MergedTable(SelectCsv(listing)) == MergedTable(listing)
  {
    SelectCsvIdempotent(listing);
  }

  /**
   * Rows follow the listing order of the selected files and, within a file,
   * the file's own order; each is its source row padded to the merged header.
   */
  lemma CombinedRowAt(listing: seq<Entry>, i: nat, j: nat)
    requires i < |SelectCsv(listing)| && j < |SelectCsv(listing)[i].table.rows|
    ensures TotalRows(TablesOf(SelectCsv(listing))[..i]) + j < |MergedTable(listing).rows|
    ensures MergedTable(listing).rows[TotalRows(TablesOf(SelectCsv(listing))[..i]) + j] ==
              Pad(SelectCsv(listing)[i].table.rows[j], MergedTable(listing).header)
  {
    var sel := SelectCsv(listing);
    var ts := TablesOf(sel);
    ConcatRowAt(ts, i, j);
    assert MergedTable(listing) == Concat(ts);
    assert ts[i] == sel[i].table;
  }

  /** Cell by cell: a merged row holds its source row's cells, and `Missing` under columns its file lacks. */
  lemma CombinedCellAt(listing: seq<Entry>, i: nat, j: nat, c: Column)
    requires i < |SelectCsv(listing)| && j < |SelectCsv(listing)[i].table.rows|
    requires c in MergedTable(listing).header
    ensures TotalRows(TablesOf(SelectCsv(listing))[..i]) + j < |MergedTable(listing).rows|
    ensures var source := SelectCsv(listing)[i].table.rows[j];
            var merged := MergedTable(listing).rows[TotalRows(TablesOf(SelectCsv(listing))[..i]) + j];
            && c in merged
            && merged[c] == (if c in source then source[c] else Missing)
  {
    CombinedRowAt(listing, i, j);
  }

  /** With exactly one CSV file in the directory, the merged table is that file's table. */
  lemma CombineSingleFile(listing: seq<Entry>, e: Entry)
    requires SelectCsv(listing) == [e]
    requires WellFormed(e.table)
    ensures MergedTable(listing) == e.table
  {
    assert TablesOf([e]) == [e.table];
    ConcatSingle(e.table);
  }

  /** Both per-day files of the worked example qualify, so the listing is selected whole. */
  lemma ExampleSelection(t1: Table, t2: Table)
    ensures var listing := [Entry("NASDAQ_quotes_2026-01-20.csv", t1), Entry("NYSE_quotes_2026-01-21.csv", t2)];
            SelectCsv(listing) == listing
  {
    var listing := [Entry("NASDAQ_quotes_2026-01-20.csv", t1), Entry("NYSE_quotes_2026-01-21.csv", t2)];
    SelectCsvAppend([listing[0]], [listing[1]]);
    assert IsCsvName(listing[0].name) by {
      IsCsvNameIff(listing[0].name);
    }
    assert IsCsvName(listing[1].name) by {
      IsCsvNameIff(listing[1].name);
    }
    SelectCsvSingle(listing[0]);
    SelectCsvSingle(listing[1]);
    assert [listing[0]] + [listing[1]] == listing;
  }

  /** The worked example: two exchange files with the same columns merge into one three-row table. */
  lemma TwoExchangeFilesExample(h: seq<Column>, a: Row, b: Row, c: Row)
    requires Distinct(h)
    requires a.Keys == b.Keys == c.Keys == ColumnSet(h)
    ensures MergedTable([Entry("NASDAQ_quotes_2026-01-20.csv", Table(h, [a, b])),
                         Entry("NYSE_quotes_2026-01-21.csv", Table(h, [c]))]) == Table(h, [a, b, c])
  {
    var t1 := Table(h, [a, b]);
    var t2 := Table(h, [c]);
    ExampleSelection(t1, t2);
    ConcatPair(t1, t2);
    var listing := [Entry("NASDAQ_quotes_2026-01-20.csv", t1), Entry("NYSE_quotes_2026-01-21.csv", t2)];
    assert TablesOf(listing) == [t1, t2];
    assert t1.rows + t2.rows == [a, b, c];
  }
}

=== FILE: seqs.dfy ===
/** Generic facts about sequence concatenation used by the path proofs. */
module Seqs {

  /** Concatenation is associative. */
  lemma AppendAssoc<T>(x: seq<T>, y: seq<T>, z: seq<T>)
    ensures (x + y) + z == x + (y + z)
  {
  }

  /** Dropping the last element of a concatenation drops it from the right operand. */
  lemma DropLastOfAppend<T>(x: seq<T>, y: seq<T>)
    requires |y| > 0
    ensures (x + y)[..|x + y| - 1] == x + y[..|y| - 1]
    ensures (x + y)[|x + y| - 1] == y[|y| - 1]
  {
  }
}

=== FILE: tables.dfy ===
/**
 * Tables as `pandas` holds a parsed CSV file: an ordered header and rows,
 * each row a map from column name to cell text. Cells are opaque strings;
 * a missing cell is the empty string, as `DataFrame.to_csv` writes it.
 *
 * `Concat` is `pandas.concat(frames, ignore_index=True, sort=False)`: the
 * header is the ordered union of the input headers, and the rows are the
 * input rows, table after table, each padded to the combined header.
 */
module Tables {
  import opened Columns

  type Cell = string
  type Row = map<Column, Cell>

  datatype Table = Table(header: seq<Column>, rows: seq<Row>)

  /** What a missing cell reads as once written. */
  const Missing: Cell := ""

  function ColumnSet(header: seq<Column>): set<Column> {
    set c | c in header
  }

  /** A parsed table: distinct column names, and every row holds exactly the header's columns. */
  predicate WellFormed(t: Table) {
    && Distinct(t.header)
    && forall i :: 0 <= i < |t.rows| ==> t.rows[i].Keys == ColumnSet(t.header)
  }

  /** Reindex a row to `header`: cells the row has are kept, absent ones become `Missing`. */
  function Pad(row: Row, header: seq<Column>): (r: Row)
    ensures r.Keys == ColumnSet(header)
    ensures forall c :: c in header && c in row ==> r[c] == row[c]
    ensures forall c :: c in header && c !in row ==> r[c] == Missing
  {
    map c | c in header :: if c in row then row[c] else Missing
  }

  /** Number of rows of all tables together. */
  function TotalRows(ts: seq<Table>): nat {
    if |ts| == 0 then 0 else |ts[0].rows| + TotalRows(ts[1..])
  }

  function PadAll(rows: seq<Row>, header: seq<Column>): (r: seq<Row>)
    ensures |r| == |rows|
    ensures forall j :: 0 <= j < |rows| ==> r[j] == Pad(rows[j], header)
  {
    seq(|rows|, j requires 0 <= j < |rows| => Pad(rows[j], header))
  }

  /** The rows of all tables, table after table, each padded to `header`. */
  function Stack(ts: seq<Table>, header: seq<Column>): (r: seq<Row>)
    ensures |r| == TotalRows(ts)
    ensures forall k :: 0 <= k < |r| ==> r[k].Keys == ColumnSet(header)
  {
    if |ts| == 0 then [] else PadAll(ts[0].rows, header) + Stack(ts[1..], header)
  }

  function Headers(ts: seq<Table>): (hs: seq<seq<Column>>)
    ensures |hs| == |ts|
    ensures forall i :: 0 <= i < |ts| ==> hs[i] == ts[i].header
  {
    seq(|ts|, i requires 0 <= i < |ts| => ts[i].header)
  }

  /** `pandas.concat(ts, ignore_index=True, sort=False)` on parsed tables. */
  function Concat(ts: seq<Table>): (r: Table)
    ensures WellFormed(r)
    ensures |r.rows| == TotalRows(ts)
    ensures forall i, c :: 0 <= i < |ts| && c in ts[i].header ==> c in r.header
    ensures forall c :: c in r.header ==> exists i :: 0 <= i < |ts| && c in ts[i].header
    ensures forall c :: c in r.header <==> c in Flatten(Headers(ts))
  {
    var header := UnionAll(Headers(ts));
    UnionAllCharacterised(Headers(ts));
    forall c
      ensures c in Flatten(Headers(ts)) <==> exists i :: 0 <= i < |ts| && c in ts[i].header
    {
      FlattenMembers(Headers(ts), c);
    }
    Table(header, Stack(ts, header))
  }

  /** Row `j` of table `i` lands at position (rows of tables before `i`) + `j`, padded. */
  lemma {:induction false} StackAt(ts: seq<Table>, header: seq<Column>, i: nat, j: nat)
    requires i < |ts| && j < |ts[i].rows|
    ensures TotalRows(ts[..i]) + j < |Stack(ts, header)|
    ensures Stack(ts, header)[TotalRows(ts[..i]) + j] == Pad(ts[i].rows[j], header)
    decreases i
  {
    if i == 0 {
      assert ts[..i] == [];
    } else {
      var rest := ts[1..];
      assert ts[..i][1..] == rest[..i - 1];
      assert TotalRows(ts[..i]) == |ts[0].rows| + TotalRows(rest[..i - 1]);
      StackAt(rest, header, i - 1, j);
      assert rest[i - 1] == ts[i];
    }
  }

  /** The tables before `i`, the table at `i` and the tables after it account for all rows. */
  lemma {:induction false} TotalRowsSplit(ts: seq<Table>, i: nat)
    requires i < |ts|
    ensures TotalRows(ts[..i]) + |ts[i].rows| + TotalRows(ts[i + 1..]) == TotalRows(ts)
    decreases i
  {
    if i > 0 {
      assert ts[..i][1..] == ts[1..][..i - 1];
      assert ts[i + 1..] == ts[1..][i..];
      TotalRowsSplit(ts[1..], i - 1);
    }
  }

  /**
   * The merged rows keep file-then-row order, and each merged row holds its
   * source row's cells under the source's columns and `Missing` elsewhere.
   */
  lemma ConcatRowAt(ts: seq<Table>, i: nat, j: nat)
    requires i < |ts| && j < |ts[i].rows|
    ensures TotalRows(ts[..i]) + j < |Concat(ts).rows|
    ensures Concat(ts).rows[TotalRows(ts[..i]) + j] == Pad(ts[i].rows[j], Concat(ts).header)
  {
    StackAt(ts, Concat(ts).header, i, j);
  }

  /** Rows of an earlier table precede rows of a later table in the merged output. */
  lemma RowsInListingOrder(ts: seq<Table>, i: nat, j: nat, i': nat, j': nat)
    requires i < i' < |ts| && j < |ts[i].rows| && j' < |ts[i'].rows|
    ensures TotalRows(ts[..i]) + j < TotalRows(ts[..i']) + j'
  {
    TotalRowsSplit(ts[..i'], i);
    assert ts[..i'][..i] == ts[..i];
    assert ts[..i'][i] == ts[i];
  }

  /** The combined header is the ordered union: first-seen order over the headers read in listing order. */
  lemma ConcatHeaderOrder(ts: seq<Table>)
    ensures Distinct(Concat(ts).header)
    ensures forall a, b :: 0 <= a < |Concat(ts).header| && 0 <= b < |Concat(ts).header| ==>
              (a < b <==> FirstIndex(Flatten(Headers(ts)), Concat(ts).header[a]) <
                          FirstIndex(Flatten(Headers(ts)), Concat(ts).header[b]))
  {
    UnionAllCharacterised(Headers(ts));
  }

  /** A row already shaped like the header is unchanged by padding. */
  lemma PadShaped(row: Row, header: seq<Column>)
    requires row.Keys == ColumnSet(header)
    ensures Pad(row, header) == row
  {
  }

  /** All rows of tables sharing one well-formed header, table after table, unpadded. */
  function AllRows(ts: seq<Table>): seq<Row> {
    if |ts| == 0 then [] else ts[0].rows + AllRows(ts[1..])
  }

  /** Stacking tables whose rows already have the header's shape just concatenates their rows. */
  lemma {:induction false} StackShaped(ts: seq<Table>, header: seq<Column>)
    requires forall i :: 0 <= i < |ts| ==> ts[i].header == header && WellFormed(ts[i])
    ensures Stack(ts, header) == AllRows(ts)
    decreases |ts|
  {
    if |ts| > 0 {
      var rows := ts[0].rows;
      assert WellFormed(ts[0]);
      forall j | 0 <= j < |rows|
        ensures PadAll(rows, header)[j] == rows[j]
      {
        PadShaped(rows[j], header);
      }
      assert PadAll(rows, header) == rows;
      StackShaped(ts[1..], header);
      assert Stack(ts, header) == PadAll(rows, header) + Stack(ts[1..], header);
    }
  }

  /** Merging tables that all have the same well-formed header keeps that header and stacks the rows. */
  lemma ConcatSameHeader(ts: seq<Table>, header: seq<Column>)
    requires |ts| > 0
    requires forall i :: 0 <= i < |ts| ==> ts[i].header == header && WellFormed(ts[i])
    ensures Concat(ts).header == header
    ensures Concat(ts).rows == AllRows(ts)
  {
    assert WellFormed(ts[0]);
    UnionAllOfRepeated(Headers(ts), header);
    StackShaped(ts, header);
  }

  /** Merging a single parsed table gives back that table. */
  lemma ConcatSingle(t: Table)
    requires WellFormed(t)
    ensures Concat([t]) == t
  {
    ConcatSameHeader([t], t.header);
    assert AllRows([t]) == t.rows + AllRows([]);
  }

  /** Two tables with one well-formed header merge into that header over both tables' rows. */
  lemma ConcatPair(t1: Table, t2: Table)
    requires t1.header == t2.header && WellFormed(t1) && WellFormed(t2)
    ensures Concat([t1, t2]) == Table(t1.header, t1.rows + t2.rows)
  {
    ConcatSameHeader([t1, t2], t1.header);
    assert [t1, t2][1..] == [t2];
    assert [t2][1..] == [];
    assert AllRows([t2]) == t2.rows;
  }
}

=== FILE: wrappers.dfy ===
/** Failure-carrying datatypes used for the error paths of the pipeline. */
module Wrappers {

  /** A value that may be absent. */
  datatype Option<+T> = None | Some(value: T)

  /** Either a successful value or the error an operation raised. */
  datatype Result<+R, +E> = Success(value: R) | Failure(error: E)
}
